=== FILE: README.md ===
# MEFExtensions.DependencyInjection — a Dafny model of the resolution policy

This project models the core of MEFExtensions.DependencyInjection, a dependency-injection
container built on System.Composition (MEF), together with its predecessor Okra.MEF.DependencyInjection.
Both generations share one model. A `Generation` parameter (`Okra` or `MefExtensions`) selects
the points where they differ: which deferred error the type provider reports, and whether
open-generic registrations are put in a bucket of their own.

Reflection is replaced by an abstract type universe:

- types are first-order terms `Ty` carrying the abstract, interface, disposable and generic-shape flags;
- constructors are parameter-type lists with a visibility flag and an optional thrown fault;
- MEF's `DependencyAccessor` is a resolution oracle `Env.resolve`;
- whether a generic definition's parameter constraints admit given type arguments is the oracle `Env.admits`;
- the composition scope tree is a map from scope paths to nodes, each with a sharing-id cache and a list of bound disposables.

Every exception is a `Failure` of a tagged `Error`, and every nullable reference is an `Option`.

Modules, leaves first:

- `Results`: `Option` and `Result`.
- `Types`: type terms, contracts, registrations, errors, and `MakeGenericType`.
- `Lifetimes`: activators and how they run over the scope tree; `FindContextWithin`, `GetOrCreate`, `ApplyServiceLifetime`.
- `Promises`: export promises and how a promise's plan becomes an activator.
- `Selection`: public constructors in descending arity, parameter resolution, and the longest composable constructor.
- `TypeExports`: `TypeExportDescriptorProvider`.
- `OpenGenericExports`: `OpenGenericExportDescriptorProvider`.
- `Providers`: the provider kinds the container builds.
- `Aggregate`: `AggregateExportDescriptorProvider`, covering last wins, collect all, and `IEnumerable<T>` synthesis with its active-element set.
- `Container`: registration classification, `CreateContainer` and `BuildServiceProvider`.
- `ServiceCollections`: `MefServiceCollection` and `ServiceCollection`, the two-list collections. The two classes behave identically, so one model serves both.
- `MefNative`: the `With*` builder extensions.

Behaviours of the code worth noting:

- The `IEnumerable<T>` dependency thunk removes the element contract from the active set only on a normal return. The removal is not in a `finally`, so a failure leaves the element marked (`Aggregate.ResolveItems`).
- An open-generic implementation whose arity differs from the contract's argument count, or whose generic-parameter constraints do not admit the contract's arguments, is not rejected at construction. Closing it with `MakeGenericType` fails when the contract is queried (`OpenGenericExports.GetExportDescriptorPromise`).
- Zero public constructors is not a build-time error. Like every selection failure, it is captured and thrown only when the activator runs (`TypeExports.FailureRaisedOnlyOnActivation`).
- The code does no constructor-cycle detection, and neither does the model.

## Model

| member | source | states |
|---|---|---|
| Selection.Candidates | src/MEFExtensions.DependencyInjection/ExportDescriptorProviders/TypeExportDescriptorProvider.cs:101-104 | the candidates are exactly the public constructors, as a permutation, in descending arity, with constructors of equal arity kept in declaration order |
| Selection.SortByArityCorrect | src/Okra.MEF.DependencyInjection/ExportDescriptorProviders/TypeExportDescriptorProvider.cs:102-104 | the stable descending sort is a permutation, is ordered by arity, and keeps the relative order of every arity class |
| Selection.ResolveParameters | src/MEFExtensions.DependencyInjection/ExportDescriptorProviders/TypeExportDescriptorProvider.cs:140-166 | resolution succeeds iff every parameter resolves, giving one dependency per parameter in parameter order; otherwise it reports the type of the first unresolvable parameter, all before it resolving |
| Selection.FirstComposable | src/MEFExtensions.DependencyInjection/ExportDescriptorProviders/TypeExportDescriptorProvider.cs:108-119 | the chosen candidate composes and no earlier candidate does; no answer means no candidate composes |
| Selection.SelectionError | src/MEFExtensions.DependencyInjection/ExportDescriptorProviders/TypeExportDescriptorProvider.cs:124-135 | newer generation: 0 candidates give no-constructor-match, 1 gives cannot-resolve naming its first unresolvable parameter, 2 or more give unable-to-activate; older generation: always no-constructor-match |
| Selection.TryGetLongestComposableConstructor | src/MEFExtensions.DependencyInjection/ExportDescriptorProviders/TypeExportDescriptorProvider.cs:99-138 | a constructor is selected iff some public constructor composes; it is public, composable, no longer public constructor composes, among composable constructors of its arity it is the first declared, and its dependencies follow its parameters; otherwise the per-generation error |
| Selection.TieGoesToFirstDeclared | src/MEFExtensions.DependencyInjection/ExportDescriptorProviders/TypeExportDescriptorProvider.cs:101-114 | of two composable public constructors of equal arity, the one declared first is selected |
| Selection.LongestResolvableConstructorWins | src/MEFExtensions.DependencyInjection/ExportDescriptorProviders/TypeExportDescriptorProvider.cs:101-119 | with public constructors (A,B,C), (A,B), (A) in any declaration order and B unresolvable, (A) is selected |
| TypeExports.NewTypeProvider | src/MEFExtensions.DependencyInjection/ExportDescriptorProviders/TypeExportDescriptorProvider.cs:17-30 | construction succeeds iff the implementation is neither abstract, an interface nor a generic definition, otherwise the type-cannot-be-activated argument error; a missing implementation is an argument-null error naming "type" |
| TypeExports.GetTypedDescriptor | src/MEFExtensions.DependencyInjection/ExportDescriptorProviders/TypeExportDescriptorProvider.cs:46-97 | given a total resolution oracle, building the promise never fails: it carries the contract, is named after the contract type, is not shared; a deferred plan has no dependencies, a constructing plan builds the implementation with the lifetime |
| TypeExports.TypedDescriptorUsesLongestComposable | src/Okra.MEF.DependencyInjection/ExportDescriptorProviders/TypeExportDescriptorProvider.cs:53-70 | the plan defers exactly when no public constructor composes, the older generation then reporting no-constructor-match; otherwise it constructs with the longest composable constructor, the first declared among equal arities, and depends on its parameters' exports in order |
| TypeExports.GetExportDescriptors | src/Okra.MEF.DependencyInjection/ExportDescriptorProviders/TypeExportDescriptorProvider.cs:34-46 | a contract of another type gets no promise; a contract of the service type gets exactly one, built for the implementation with the registered lifetime |
| TypeExports.DeferredErrorByCandidateCount | src/MEFExtensions.DependencyInjection/ExportDescriptorProviders/TypeExportDescriptorProvider.cs:124-135 | the newer generation's deferred error depends on the number of public constructors, naming an unresolvable parameter when there is one candidate |
| TypeExports.FailureRaisedOnlyOnActivation | src/MEFExtensions.DependencyInjection/ExportDescriptorProviders/TypeExportDescriptorProvider.cs:52-63 | with no composable constructor the promise has no dependencies, its activator is the bare throwing one, not lifetime-wrapped, and running it anywhere raises the captured error and changes no state |
| TypeExports.SuccessActivatorIsLifetimeWrapped | src/MEFExtensions.DependencyInjection/ExportDescriptorProviders/TypeExportDescriptorProvider.cs:95 | on the success path the constructing activator is wrapped by the lifetime: unchanged for transient, a shared activator with a fresh sharing id otherwise |
| TypeExports.ConstructorReceivesArgumentsInOrder | src/Okra.MEF.DependencyInjection/ExportDescriptorProviders/TypeExportDescriptorProvider.cs:73-94 | for any parameter activators: each runs in the world its predecessors left and the constructor receives their results in parameter order; the first failing one stops the run and its error is the activation's; the constructor's own exception surfaces unwrapped; a disposable result is bound to the running scope |
| Promises.DeferredFailureRaisedOnlyWhenRun | src/MEFExtensions.DependencyInjection/ExportDescriptorProviders/TypeExportDescriptorProvider.cs:54-62 | building a deferred-failure descriptor allocates no sharing id; running it throws the captured error and leaves the world unchanged |
| Lifetimes.ApplyServiceLifetime | src/MEFExtensions.DependencyInjection/Util/CompositeActivatorExtensions.cs:8-35 | transient returns the activator unchanged and consumes no sharing id; other lifetimes consume exactly one id at wrap time; scoped targets the "Scope" boundary, singleton the root |
| Lifetimes.FindContextWithin | src/MEFExtensions.DependencyInjection/Util/CompositeActivatorExtensions.cs:20-21 | no boundary selects the root; a boundary selects an enclosing scope carrying it, and fails only when no enclosing scope carries it |
| Lifetimes.Nearest | src/MEFExtensions.DependencyInjection/Util/CompositeActivatorExtensions.cs:21 | the scope found carries the boundary and no scope between it and the starting scope does |
| Lifetimes.GetOrCreate | src/MEFExtensions.DependencyInjection/Util/CompositeActivatorExtensions.cs:22-32 | a cached instance is returned without running anything; otherwise a successful result is cached in the target scope |
| Lifetimes.Construction | src/MEFExtensions.DependencyInjection/ExportDescriptorProviders/TypeExportDescriptorProvider.cs:78-92 | a constructor call yields a fresh object of the implementation with the given arguments, or the constructor's own exception; only a disposable result is bound to the running scope |
| Lifetimes.RunAll | src/MEFExtensions.DependencyInjection/ExportDescriptorProviders/TypeExportDescriptorProvider.cs:76 | parameter activators run left to right in the same scope, one result per activator |
| Lifetimes.RunAllAppend | src/MEFExtensions.DependencyInjection/ExportDescriptorProviders/TypeExportDescriptorProvider.cs:76 | running `a + b` is running `a` and then, if it succeeded, `b` in the world `a` left, the results concatenated; a failure in `a` is the whole run's outcome and `b` never runs |
| Lifetimes.RunAllInOrder | src/MEFExtensions.DependencyInjection/ExportDescriptorProviders/TypeExportDescriptorProvider.cs:76 | on success the i-th result is what the i-th activator returns when run in the world the activators before it left, all of which succeeded |
| Lifetimes.RunAllStopsAtFirstFailure | src/MEFExtensions.DependencyInjection/ExportDescriptorProviders/TypeExportDescriptorProvider.cs:76 | a failed run is the failure of some activator all of whose predecessors succeeded, and it ends in the world that activator left, so no later activator ran |
| Lifetimes.SharedInstanceIsReused | src/MEFExtensions.DependencyInjection/Util/CompositeActivatorExtensions.cs:16-32 | after a successful shared run, any later run of the same sharing id that reaches the same target scope returns the same instance and changes nothing |
| Lifetimes.SingletonIsSharedByAllScopes | src/MEFExtensions.DependencyInjection/Util/CompositeActivatorExtensions.cs:20-21 | a singleton resolved in any scope is the instance every other scope then gets |
| Lifetimes.TransientInstancesAreDistinct | src/MEFExtensions.DependencyInjection/Util/CompositeActivatorExtensions.cs:10-13 | two transient activations return different instances |
| Lifetimes.ScopedSiblingsGetDistinctInstances | src/MEFExtensions.DependencyInjection/Util/CompositeActivatorExtensions.cs:20-32 | two sibling service scopes get different scoped instances |
| Lifetimes.SharedDisposableBelongsToTarget | src/MEFExtensions.DependencyInjection/Util/CompositeActivatorExtensions.cs:27-32 | a shared disposable created on a cache miss is bound to, and cached in, the target scope rather than the requesting one |
| OpenGenericExports.NewOpenGenericProvider | src/MEFExtensions.DependencyInjection/ExportDescriptorProviders/OpenGenericExportDescriptorProvider.cs:17-34 | construction succeeds iff every registration has a concrete generic-definition implementation and a generic-definition service; the first rejected registration, in order, decides the error: argument-null naming "type" when it has no implementation, type-cannot-be-activated otherwise |
| OpenGenericExports.GetExportDescriptorPromise | src/MEFExtensions.DependencyInjection/ExportDescriptorProviders/OpenGenericExportDescriptorProvider.cs:42-55 | a non-matching registration contributes nothing; a matching one succeeds iff its implementation is a definition of the contract's arity whose constraints admit the contract's arguments, giving a promise for the contract, and otherwise fails with `MakeGenericType`'s error |
| OpenGenericExports.ConstraintViolationFailsQuery | src/MEFExtensions.DependencyInjection/ExportDescriptorProviders/OpenGenericExportDescriptorProvider.cs:36-55 | a matching registration whose constraints reject the contract's arguments fails with the constraint error and fails the whole query, even when the arity fits; when every earlier registration closes, the query's error is that constraint error |
| OpenGenericExports.MatchingRegistrations | src/MEFExtensions.DependencyInjection/ExportDescriptorProviders/OpenGenericExportDescriptorProvider.cs:44-45 | exactly the registrations whose service type is the contract's generic definition |
| OpenGenericExports.GetExportDescriptors | src/MEFExtensions.DependencyInjection/ExportDescriptorProviders/OpenGenericExportDescriptorProvider.cs:36-40 | the query succeeds iff every registration either does not match or can be closed over the contract's arguments, arity and generic-parameter constraints included; a failed query reports the closing error of the first registration, in registration order, that cannot be closed |
| OpenGenericExports.GatherFailsAtFirst | src/MEFExtensions.DependencyInjection/ExportDescriptorProviders/OpenGenericExportDescriptorProvider.cs:38-39 | the lazy enumeration reports the first failed answer, whatever fails after it |
| OpenGenericExports.PromisesFollowMatchingRegistrations | src/MEFExtensions.DependencyInjection/ExportDescriptorProviders/OpenGenericExportDescriptorProvider.cs:38-39 | a successful query yields exactly one promise per matching registration, the i-th being the answer of the i-th matching registration in registration order |
| OpenGenericExports.NonGenericContractMatchesNothing | src/MEFExtensions.DependencyInjection/ExportDescriptorProviders/OpenGenericExportDescriptorProvider.cs:44-45 | a non-generic contract gets no promise |
| OpenGenericExports.QueryDistributesOverRegistrations | src/MEFExtensions.DependencyInjection/ExportDescriptorProviders/OpenGenericExportDescriptorProvider.cs:33-39 | querying concatenated registrations concatenates the answers |
| OpenGenericExports.ClosedImplementationIsConstructed | src/MEFExtensions.DependencyInjection/ExportDescriptorProviders/OpenGenericExportDescriptorProvider.cs:47-54 | the promise is the type provider's promise for the implementation closed over exactly the contract's arguments, with the registration's lifetime |
| Providers.GetExportDescriptors | src/MEFExtensions.DependencyInjection/ExportDescriptorProviders/TypeExportDescriptorProvider.cs:32-44 | a closed provider never fails and answers with exactly one promise iff the contract type is its service type; every promise carries the contract |
| Aggregate.Concatenated | src/Okra.MEF.DependencyInjection/ExportDescriptorProviders/AggregateExportDescriptorProvider.cs:24 | the enumeration succeeds iff every provider answers; all promises carry the contract |
| Aggregate.ConcatenatedAppend | src/Okra.MEF.DependencyInjection/ExportDescriptorProviders/AggregateExportDescriptorProvider.cs:24 | asking a concatenation of provider lists concatenates their answers, in provider order |
| Aggregate.GetAggregateDescriptors | src/Okra.MEF.DependencyInjection/ExportDescriptorProviders/AggregateExportDescriptorProvider.cs:22-59 | with candidates: all of them for an active contract, only the last otherwise; without: one synthesised promise for `IEnumerable<T>`, an empty answer for anything else |
| Aggregate.ElementContract | src/Okra.MEF.DependencyInjection/ExportDescriptorProviders/AggregateExportDescriptorProvider.cs:49-50 | the element contract is the request with only its type changed to the single type argument |
| Aggregate.EnumerablePromise | src/Okra.MEF.DependencyInjection/ExportDescriptorProviders/AggregateExportDescriptorProvider.cs:61-73 | the synthesised promise carries the request, is named after the element's array type, is not shared, and depends on the element's items |
| Aggregate.ResolveItems | src/Okra.MEF.DependencyInjection/ExportDescriptorProviders/AggregateExportDescriptorProvider.cs:67-73 | the element is marked active while its exports are resolved as "item" dependencies in order; it is unmarked after a normal return and left marked after a failure |
| Aggregate.LaterProvidersOverride | src/Okra.MEF.DependencyInjection/ExportDescriptorProviders/AggregateExportDescriptorProvider.cs:30-43 | for an ordinary request, earlier providers stop mattering once a later provider answers |
| Aggregate.ExplicitEnumerableRegistrationWins | src/Okra.MEF.DependencyInjection/ExportDescriptorProviders/AggregateExportDescriptorProvider.cs:30-56 | a synthesised sequence promise appears iff no provider answers the `IEnumerable<T>` request |
| Aggregate.ThunkActiveSetEffect | src/Okra.MEF.DependencyInjection/ExportDescriptorProviders/AggregateExportDescriptorProvider.cs:69-71 | a normal return restores an active set that lacked the element; a failure leaves it marked; an element already present is removed |
| Aggregate.ItemsAreEveryExport | src/Okra.MEF.DependencyInjection/ExportDescriptorProviders/AggregateExportDescriptorProvider.cs:70 | while collecting items, every export of the element is a dependency, in provider order |
| Aggregate.SequenceActivatorCollectsItems | src/Okra.MEF.DependencyInjection/ExportDescriptorProviders/AggregateExportDescriptorProvider.cs:74-81 | for any item activators: each runs in the world its predecessors left and the array holds their results in item order; the first failing item stops the run and its error is the activation's; building allocates no sharing id |
| Container.Classify | src/MEFExtensions.DependencyInjection/ServiceCollectionExtensions.cs:34-49 | instance before factory before type; a type registration with a generic-definition service goes to the bucket in the newer generation; nothing set is not implemented |
| Container.OpenRegistrations | src/MEFExtensions.DependencyInjection/ServiceCollectionExtensions.cs:42-43 | the bucket holds exactly the open-generic type registrations, and is empty in the older generation |
| Container.Sort | src/Okra.MEF.DependencyInjection/ServiceCollectionExtensions.cs:33-43 | classification succeeds iff every registration classifies; closed providers only, one per registration in the older generation |
| Container.FirstFailingRegistrationReported | src/MEFExtensions.DependencyInjection/ServiceCollectionExtensions.cs:34-49 | a failing classification loop reports the first registration, in order, that cannot be classified |
| Container.CreateContainer | src/MEFExtensions.DependencyInjection/ServiceCollectionExtensions.cs:29-62 | the build succeeds iff every registration classifies and every bucketed one is valid; a classification failure reports its error, and otherwise an invalid bucket reports the open-generic provider's rejection of its first invalid registration; the newer generation puts exactly one open-generic provider before every closed provider, even with an empty bucket |
| Container.ContainerSplitsAroundType | src/MEFExtensions.DependencyInjection/ServiceCollectionExtensions.cs:34-58 | the container built from `a + [d] + b` is, in order, the open-generic provider (newer generation only), the closed providers of `a`, the type provider of `d`, and the closed providers of `b` |
| Container.SortDistributes | src/MEFExtensions.DependencyInjection/ServiceCollectionExtensions.cs:34-46 | closed providers keep registration order |
| Container.LastClosedRegistrationWins | src/Okra.MEF.DependencyInjection/ServiceCollectionExtensions.cs:50 | an ordinary request gets exactly the promise of the last registration of its type |
| Container.ClosedRegistrationOverridesOpenGeneric | src/MEFExtensions.DependencyInjection/ServiceCollectionExtensions.cs:56-58 | when an open-generic registration of the definition is present, the open-generic provider does answer the contract, yet a closed registration of the constructed contract is the only answer, whatever the order |
| OpenGenericExports.MatchingRegistrationAnswers | src/MEFExtensions.DependencyInjection/ExportDescriptorProviders/OpenGenericExportDescriptorProvider.cs:36-45 | a provider holding a registration that matches the contract gives at least one promise |
| Container.OkraRejectsOpenImplementation | src/Okra.MEF.DependencyInjection/ServiceCollectionExtensions.cs:39-40 | in the older generation a generic-definition implementation reaches the type provider and fails the build |
| Container.BuildServiceProvider | src/MEFExtensions.DependencyInjection/ServiceCollectionExtensions.cs:18-25 | the build fails iff the container build fails; the provider handed out belongs to a fresh child of the root carrying the "Scope" boundary, with an empty cache |
| Container.ReturnedScopeIsTheScopedTarget | src/MEFExtensions.DependencyInjection/ServiceCollectionExtensions.cs:20-24 | through the returned provider, scoped services live in the handed-out scope and singletons in the root |
| ServiceCollections.NewMefServiceCollection | src/MEFExtensions.DependencyInjection/MefServiceCollection.cs:17-20 | both lists start empty (`ServiceCollection`'s default constructor, ServiceCollection.cs:17-18, is the same) |
| ServiceCollections.MefServiceCollectionFrom | src/MEFExtensions.DependencyInjection/MefServiceCollection.cs:22-25 | the descriptors are copied with count and order kept and no actions; a missing source is an argument-null error |
| ServiceCollections.Count | src/MEFExtensions.DependencyInjection/MefServiceCollection.cs:28 | the count is the number of positions the indexer accepts |
| ServiceCollections.IsReadOnly | src/MEFExtensions.DependencyInjection/MefServiceCollection.cs:31 | a collection is never read-only |
| ServiceCollections.Get | src/MEFExtensions.DependencyInjection/MefServiceCollection.cs:35-38 | the getter fails with out-of-range exactly outside 0..Count-1 and otherwise returns a stored descriptor |
| ServiceCollections.Set | src/MEFExtensions.DependencyInjection/MefServiceCollection.cs:39-42 | the setter replaces one position, leaves every other position and the actions alone, and fails outside the range |
| ServiceCollections.Clear | src/MEFExtensions.DependencyInjection/MefServiceCollection.cs:54-57 | the descriptors are emptied and the actions kept |
| ServiceCollections.Contains | src/MEFExtensions.DependencyInjection/MefServiceCollection.cs:60-63 | true iff some position holds the same descriptor object; an equal copy does not count |
| ServiceCollections.IndexOf | src/MEFExtensions.DependencyInjection/MefServiceCollection.cs:98-101 | the first position holding the item's object, or -1 when none does |
| ServiceCollections.Remove | src/MEFExtensions.DependencyInjection/MefServiceCollection.cs:72-75 | reports whether the item's object was present, and then removes its first occurrence |
| ServiceCollections.AddDescriptor | src/MEFExtensions.DependencyInjection/MefServiceCollection.cs:83-86 | appends one descriptor, keeping the earlier ones and the actions |
| ServiceCollections.AddAction | src/MEFExtensions.DependencyInjection/MefServiceCollection.cs:88-91 | appends one action, keeping the earlier ones and every descriptor |
| ServiceCollections.Insert | src/MEFExtensions.DependencyInjection/MefServiceCollection.cs:103-106 | the item lands at the index, later descriptors move up one, an index equal to the count appends, and any other index fails |
| ServiceCollections.RemoveAt | src/MEFExtensions.DependencyInjection/MefServiceCollection.cs:108-111 | the descriptor at the index goes, later ones move down one, and an index outside the range fails |
| ServiceCollections.ContainsAgreesWithIndexOf | src/MEFExtensions.DependencyInjection/ServiceCollection.cs:53-56 | membership agrees with finding a position, and the position found holds the item's object |
| ServiceCollections.EqualCopyIsNotTheDescriptor | src/MEFExtensions.DependencyInjection/ServiceCollection.cs:53-68 | a stored descriptor is found, while a copy with equal content and another identity is neither contained, found nor removed |
| ServiceCollections.RemoveTakesOneOccurrence | src/MEFExtensions.DependencyInjection/ServiceCollection.cs:65-68 | removing takes away exactly one reference to the item's object and nothing else |
| ServiceCollections.InsertThenRemoveAt | src/MEFExtensions.DependencyInjection/ServiceCollection.cs:96-104 | inserting and then removing at the same index gives back the collection |
| ServiceCollections.RemoveAtThenInsert | src/MEFExtensions.DependencyInjection/MefServiceCollection.cs:103-111 | removing a descriptor and inserting it back at its index gives back the collection |
| ServiceCollections.SetGetRoundTrip | src/MEFExtensions.DependencyInjection/ServiceCollection.cs:26-36 | writing back the value read changes nothing; of two writes to one position only the second remains |
| ServiceCollections.AddThenRemove | src/MEFExtensions.DependencyInjection/ServiceCollection.cs:76-79 | adding an absent descriptor and removing it gives back the collection |
| ServiceCollections.ListsAreIndependent | src/MEFExtensions.DependencyInjection/ServiceCollection.cs:76-84 | descriptor operations and action appends commute, and clearing keeps the actions |
| MefNative.Record | src/MEFExtensions.DependencyInjection/ServiceCollectionExtensions_MefNative.cs:13-20 | the collection is checked before the required argument; a successful call appends exactly one action and leaves the descriptors |
| MefNative.WithProvider | src/MEFExtensions.DependencyInjection/ServiceCollectionExtensions_MefNative.cs:11-21 | fails naming "services", then "exportDescriptorProvider"; otherwise records that provider |
| MefNative.WithDefaultConventions | src/MEFExtensions.DependencyInjection/ServiceCollectionExtensions_MefNative.cs:23-33 | fails naming "services", then "conventions"; otherwise records those conventions |
| MefNative.WithPart | src/MEFExtensions.DependencyInjection/ServiceCollectionExtensions_MefNative.cs:35-38 | succeeds iff collection and part type are given, recording the part without conventions |
| MefNative.WithPartUsing | src/MEFExtensions.DependencyInjection/ServiceCollectionExtensions_MefNative.cs:40-50 | fails naming "services", then "partType"; missing conventions never fail |
| MefNative.WithPartOf | src/MEFExtensions.DependencyInjection/ServiceCollectionExtensions_MefNative.cs:52-55 | fails only without a collection; records the type argument as the part |
| MefNative.WithPartOfUsing | src/MEFExtensions.DependencyInjection/ServiceCollectionExtensions_MefNative.cs:57-60 | fails only without a collection; records the type argument with the conventions |
| MefNative.WithPartsArray | src/MEFExtensions.DependencyInjection/ServiceCollectionExtensions_MefNative.cs:62-65 | behaves as the enumeration overload: fails naming "services", then "partTypes" |
| MefNative.WithParts | src/MEFExtensions.DependencyInjection/ServiceCollectionExtensions_MefNative.cs:67-70 | succeeds iff collection and part types are given, recording them without conventions |
| MefNative.WithPartsUsing | src/MEFExtensions.DependencyInjection/ServiceCollectionExtensions_MefNative.cs:72-82 | fails naming "services", then "partTypes"; missing conventions never fail |
| MefNative.WithAssembly | src/MEFExtensions.DependencyInjection/ServiceCollectionExtensions_MefNative.cs:84-87 | succeeds iff collection and assembly are given, recording the assembly without conventions |
| MefNative.WithAssemblyUsing | src/MEFExtensions.DependencyInjection/ServiceCollectionExtensions_MefNative.cs:89-99 | fails naming "services", then "assembly"; missing conventions never fail |
| MefNative.WithAssemblies | src/MEFExtensions.DependencyInjection/ServiceCollectionExtensions_MefNative.cs:101-104 | succeeds iff collection and assemblies are given, recording them without conventions |
| MefNative.WithAssembliesUsing | src/MEFExtensions.DependencyInjection/ServiceCollectionExtensions_MefNative.cs:106-116 | fails naming "services", then "assemblies"; missing conventions never fail |
| MefNative.Chain | test/MEFExtensions.DependencyInjection.Tests/ServiceCollectionExtensionsTests_MEFNative.cs:452-459 | a fluent chain keeps every descriptor, holds the actions of the calls before the first failing one, and reports that call's missing parameter |
| MefNative.SuccessfulChainAppendsOnePerCall | src/MEFExtensions.DependencyInjection/ServiceCollectionExtensions_MefNative.cs:19-20 | a chain of valid calls grows the action list by exactly the number of calls and touches no descriptor |
| MefNative.ThrowingCallRecordsNothing | src/MEFExtensions.DependencyInjection/ServiceCollectionExtensions_MefNative.cs:42-48 | a call missing its argument records nothing and stops the chain, leaving only the earlier calls' actions |

## Left out

- Reflection (`GetTypeInfo`, `DeclaredConstructors`, `MakeGenericMethod`, `CreateStaticDelegate`) is replaced by the type terms and the `Env` oracle. Dispatch on the contract type is direct.
- MEF runtime internals are abstracted:
  - `ContainerConfiguration`, `CompositionContext` and `ExportFactory`;
  - the locking in `GetOrCreate`;
  - `CompositionOperation`;
  - how MEF wires dependency targets to descriptors.
  A descriptor's activator is built from the activators of its dependency targets, which are passed as parameters.
- Concurrency is left out: at-most-one construction under contention cannot be stated without threads.
- Scope release and disposal are left out. Bound disposables are recorded per scope but never disposed.
- `MefServiceProvider` and `MefServiceScopeFactory` are thin wrappers and are not part of this model. `BuildServiceProvider` opens the child scope directly under the root, carrying the "Scope" boundary the scope factory asks for.
- `InstanceExportDescriptorProvider`, `FactoryExportDescriptorProvider` and the newer generation's own `AggregateExportDescriptorProvider` are not part of this model. The instance and factory providers are stubs that match the exact service type and give one promise. The older generation's aggregate stands in for both generations.
- `CreateContainer` also adds the `MefServiceProvider` and `MefServiceScopeFactory` parts to the configuration. These are not modelled.
- The recorded MEF actions are never applied to a configuration, because `CreateContainer` does not read them.
- Error message texts (`Resources.*`) are left out; errors are tagged values.
- `CopyTo` and the enumerators of the collections are left out.
- Collections are immutable values, so "returns the same collection" becomes "returns the argument with one action appended".
- A null descriptor inside a collection is not modelled.
- Object identity of created instances is by value: an instance is its creation number, runtime type and arguments. Service descriptors carry an explicit identity, which the collections compare.
- The name of a type is its `name` field. `typeof(T[]).Name` is the element's name followed by "[]".
- MefNative.WithProvider: the provider, convention builder and assembly arguments are opaque labels. Their own behaviour is not modelled.
- Aggregate.ResolveItems: the item dependencies are taken from the aggregate's own answer. MEF's `ResolveDependencies` also consults parts registered outside the aggregate, which are not modelled.
- TypeExports.GetTypedDescriptor: building the promise never fails only because the resolution oracle `Env.resolve` is total. In the code, resolving an optional dependency (`TryResolveOptionalDependency`, TypeExportDescriptorProvider.cs:151) runs other providers' queries, and the aggregate's `Count()` (AggregateExportDescriptorProvider.cs:30) forces the open-generic provider's lazy query (OpenGenericExportDescriptorProvider.cs:38-39). Either can throw while a promise is built, for example the `MakeGenericType` argument error for an `IRepo<>` registration implemented by `Repo<,>`; the model does not propagate such failures through the oracle.

=== FILE: aggregate.dfy ===
/** The aggregate provider (`AggregateExportDescriptorProvider`): the one provider the container
    hands to MEF. It asks every provider in order, then keeps only the last answer for an
    ordinary request, keeps every answer while the contract's items are being collected, and
    synthesises a sequence promise for an `IEnumerable<T>` request nobody answered. The set of
    contracts whose items are being collected is the provider's only state. */
module Aggregate {
  import opened Results
  import opened Types
  import opened Lifetimes
  import opened Promises
  import opened Providers
  import TypeExports

  /** The generic definition `IEnumerable<>`. */
  const EnumerableDefinition: Ty := Ty("IEnumerable", Definition(1), true, true, false)

  /** Every provider the aggregate holds is one the container could have built. */
  predicate AllWellFormed(ps: seq<Provider>) {
    forall p :: p in ps ==> WellFormed(p)
  }

  /** Every provider's promises for the contract, in provider order. The first provider whose
      answer fails fails the whole enumeration. */
  function Concatenated(ps: seq<Provider>, contract: Contract, env: Env): (r: Outcome<seq<Promise>>)
    requires AllWellFormed(ps)
    ensures r.Success? <==> forall p :: p in ps ==> GetExportDescriptors(p, contract, env).Success?
    ensures r.Success? ==> forall i :: 0 <= i < |r.value| ==> r.value[i].contract == contract && r.value[i].thunk.Known?
    decreases |ps|
  {
    if ps == [] then Success([])
    else
      var tail := ps[1..];
      assert ps == [ps[0]] + tail;
      var first := GetExportDescriptors(ps[0], contract, env);
      if first.Failure? then Failure(first.error)
      else
        var rest := Concatenated(tail, contract, env);
        if rest.Failure? then Failure(rest.error)
        else
          AllCarryContract(first.value, rest.value, contract);
          Success(first.value + rest.value)
  }

  /** Promises that all carry the contract still do once concatenated. */
  lemma AllCarryContract(xs: seq<Promise>, ys: seq<Promise>, contract: Contract)
    requires forall i :: 0 <= i < |xs| ==> xs[i].contract == contract && xs[i].thunk.Known?
    requires forall i :: 0 <= i < |ys| ==> ys[i].contract == contract && ys[i].thunk.Known?
    ensures forall i :: 0 <= i < |xs + ys| ==> (xs + ys)[i].contract == contract && (xs + ys)[i].thunk.Known?
  {
    forall i | 0 <= i < |xs + ys| ensures (xs + ys)[i].contract == contract && (xs + ys)[i].thunk.Known? {
      if i >= |xs| {
        assert (xs + ys)[i] == ys[i - |xs|];
      }
    }
  }

  /** A request for `IEnumerable<T>` with its single type argument. */
  predicate IsEnumerableRequest(contract: Contract) {
    && contract.contractType.IsConstructedGenericType()
    && contract.contractType.GetGenericTypeDefinition() == EnumerableDefinition
  }

  /** The element contract of an `IEnumerable<T>` request: the request with its type changed to T. */
  function ElementContract(contract: Contract): (e: Contract)
    requires IsEnumerableRequest(contract)
    ensures e.contractType == contract.contractType.GenericTypeArguments()[0]
    ensures e.contractName == contract.contractName && e.constraints == contract.constraints
  {
    contract.ChangeType(contract.contractType.GenericTypeArguments()[0])
  }

  /** `GetEnumerableDescriptor`: the synthesised sequence promise, named after the array type of
      its element, whose dependencies are every export of the element contract. */
  function EnumerablePromise(contract: Contract): (p: Promise)
    requires IsEnumerableRequest(contract)
    ensures p.contract == contract && !p.isShared
    ensures p.origin == ElementContract(contract).contractType.name + "[]"
    ensures p.thunk == ItemsOf(ElementContract(contract)) && p.plan == CollectItems
  {
    var element := ElementContract(contract);
    Promise(contract, element.contractType.name + "[]", false, ItemsOf(element), CollectItems)
  }

  /** The aggregate's `GetExportDescriptors` for a contract, given the set of contracts whose
      items are currently being collected. */
  function GetAggregateDescriptors(ps: seq<Provider>, contract: Contract, active: set<Contract>, env: Env)
    : (r: Outcome<seq<Promise>>)
    requires AllWellFormed(ps)
    ensures r.Failure? <==> Concatenated(ps, contract, env).Failure?
    ensures r.Success? ==> forall i :: 0 <= i < |r.value| ==> r.value[i].contract == contract
    ensures r.Success? && contract !in active ==> |r.value| <= 1
    ensures r.Success? && |r.value| == 0 ==>
              Concatenated(ps, contract, env).value == [] && !IsEnumerableRequest(contract)
    ensures r.Success? && Concatenated(ps, contract, env).value != [] ==>
              && (contract in active ==> r.value == Concatenated(ps, contract, env).value)
              && (contract !in active ==> r.value == [Last(Concatenated(ps, contract, env).value)])
    ensures r.Success? && Concatenated(ps, contract, env).value == [] && IsEnumerableRequest(contract) ==>
              r.value == [EnumerablePromise(contract)]
    ensures r.Success? && Concatenated(ps, contract, env).value == [] && !IsEnumerableRequest(contract) ==> r.value == []
  {
    var candidates :- Concatenated(ps, contract, env);
    if |candidates| > 0 then
      if contract in active then Success(candidates) else Success([Last(candidates)])
    else if IsEnumerableRequest(contract) then Success([EnumerablePromise(contract)])
    else Success([])
  }

  function Last<T>(s: seq<T>): T
    requires s != []
  {
    s[|s| - 1]
  }

  /** One "item" dependency per promise, in order. */
  function ItemDependencies(element: Contract, promises: seq<Promise>): (r: seq<Dependency>)
    ensures |r| == |promises|
    ensures forall i :: 0 <= i < |r| ==> r[i] == Dependency("item", element, promises[i])
  {
    if promises == [] then [] else [Dependency("item", element, promises[0])] + ItemDependencies(element, promises[1..])
  }

  /** The dependency thunk of the sequence promise: it marks the element contract active,
      resolves every export of it through the aggregate, then unmarks it. The unmarking is not
      protected against a failure, which leaves the element contract marked. */
  function ResolveItems(ps: seq<Provider>, element: Contract, active: set<Contract>, env: Env)
    : (r: (Outcome<seq<Dependency>>, set<Contract>))
    requires AllWellFormed(ps)
    ensures r.0.Success? ==> r.1 == active - {element}
    ensures r.0.Failure? ==> r.1 == active + {element}
    ensures r.0.Success? <==> Concatenated(ps, element, env).Success?
    ensures r.0.Success? ==>
              var during := GetAggregateDescriptors(ps, element, active + {element}, env).value;
              && |r.0.value| == |during|
              && forall i :: 0 <= i < |during| ==> r.0.value[i] == Dependency("item", element, during[i])
  {
    var during := active + {element};
    var items := GetAggregateDescriptors(ps, element, during, env);
    if items.Failure? then (Failure(items.error), during)
    else (Success(ItemDependencies(element, items.value)), during - {element})
  }

  /** Distribution of the concatenation over a split provider list. */
  lemma {:induction false} ConcatenatedAppend(a: seq<Provider>, b: seq<Provider>, contract: Contract, env: Env)
    requires AllWellFormed(a) && AllWellFormed(b)
    ensures AllWellFormed(a + b)
    ensures Concatenated(a + b, contract, env).Success?
            <==> Concatenated(a, contract, env).Success? && Concatenated(b, contract, env).Success?
    ensures Concatenated(a + b, contract, env).Success? ==>
              Concatenated(a + b, contract, env).value
              == Concatenated(a, contract, env).value + Concatenated(b, contract, env).value
    decreases |a|
  {
    if a == [] {
      assert a + b == b;
    } else {
      var tail := a[1..];
      assert a == [a[0]] + tail;
      assert (a + b)[0] == a[0];
      assert (a + b)[1..] == tail + b;
      ConcatenatedAppend(tail, b, contract, env);
      var first := GetExportDescriptors(a[0], contract, env);
      var ct := Concatenated(tail, contract, env);
      var cb := Concatenated(b, contract, env);
      if first.Success? && ct.Success? && cb.Success? {
        SeqAssoc(first.value, ct.value, cb.value);
      }
    }
  }

  /** Last wins: for an ordinary request, once later providers answer, earlier providers no longer
      matter (as long as asking them does not fail). */
  lemma LaterProvidersOverride(a: seq<Provider>, b: seq<Provider>, contract: Contract, active: set<Contract>, env: Env)
    requires AllWellFormed(a) && AllWellFormed(b)
    requires contract !in active
    requires Concatenated(a, contract, env).Success?
    requires Concatenated(b, contract, env).Success? && Concatenated(b, contract, env).value != []
    ensures AllWellFormed(a + b)
    ensures GetAggregateDescriptors(a + b, contract, active, env) == GetAggregateDescriptors(b, contract, active, env)
  {
    ConcatenatedAppend(a, b, contract, env);
  }

  /** An explicit registration for `IEnumerable<T>` takes precedence over synthesis: the synthesised
      promise appears exactly when no provider answers the request. */
  lemma ExplicitEnumerableRegistrationWins(ps: seq<Provider>, contract: Contract, active: set<Contract>, env: Env)
    requires AllWellFormed(ps)
    requires IsEnumerableRequest(contract)
    requires Concatenated(ps, contract, env).Success?
    ensures var r := GetAggregateDescriptors(ps, contract, active, env).value;
            (exists i :: 0 <= i < |r| && r[i].thunk.ItemsOf?) <==> Concatenated(ps, contract, env).value == []
  {
    var c := Concatenated(ps, contract, env).value;
    var r := GetAggregateDescriptors(ps, contract, active, env).value;
    if c != [] {
      assert forall i :: 0 <= i < |r| ==> r[i] in c;
    } else {
      assert r[0].thunk.ItemsOf?;
    }
  }

  /** The element set of the thunk: a normal return restores a set that did not hold the element;
      a failure leaves the element in it; an element that was already present is removed. */
  lemma ThunkActiveSetEffect(ps: seq<Provider>, element: Contract, active: set<Contract>, env: Env)
    requires AllWellFormed(ps)
    ensures var (deps, after) := ResolveItems(ps, element, active, env);
            && (deps.Success? && element !in active ==> after == active)
            && (deps.Failure? ==> element in after && active <= after)
            && (deps.Success? && element in active ==> element !in after && after + {element} == active)
  {
  }

  /** While collecting items every export of the element contract is a dependency, in provider
      order; an element nobody exports, and that is not itself a sequence, has no items. */
  lemma ItemsAreEveryExport(ps: seq<Provider>, element: Contract, active: set<Contract>, env: Env)
    requires AllWellFormed(ps)
    requires Concatenated(ps, element, env).Success?
    ensures var deps := ResolveItems(ps, element, active, env).0;
            var all := Concatenated(ps, element, env).value;
            && deps.Success?
            && (all != [] ==> |deps.value| == |all| && forall i :: 0 <= i < |all| ==> deps.value[i].target == all[i])
            && (all == [] && !IsEnumerableRequest(element) ==> deps.value == [])
  {
  }

  /** The synthesised activator runs the item activators left to right, each in the world the
      ones before it left behind, and returns the array of their results in item order; the first
      failing item stops the run and its error is the activation's error. Building it allocates
      no sharing id. */
  lemma SequenceActivatorCollectsItems(items: seq<Activator>, nextSharingId: nat, w: World, s: ScopeId)
    requires Valid(w) && s in w.scopes
    ensures var (a, next) := BuildDescriptor(CollectItems, items, nextSharingId);
            var (r, w1) := RunAll(items, w, s);
            && next == nextSharingId
            && (r.Success? ==>
                  && Run(a, w, s) == (Success(Arr(r.value)), w1)
                  && |r.value| == |items|
                  && forall i :: 0 <= i < |items| ==> Run(items[i], WorldBefore(items, i, w, s), s).0 == Success(r.value[i]))
            && (r.Failure? ==>
                  && Run(a, w, s) == (Failure(r.error), w1)
                  && exists k :: FailsFirstAt(items, k, w, s, Failure(r.error), w1))
  {
    assert BuildDescriptor(CollectItems, items, nextSharingId) == (Collect(items), nextSharingId);
    RunAllInOrder(items, w, s);
    RunAllStopsAtFirstFailure(items, w, s);
    RunCollect(items, w, s);
  }
}

=== FILE: builders.dfy ===
/** The MEF-native builder extensions (`ServiceCollectionExtensions_MefNative`): each `With*` call
    checks the collection, then its required argument, and then records exactly one
    configuration action, returning the collection it was given. Conventions are optional
    everywhere except in `WithDefaultConventions`; the overloads without them pass none. A
    missing reference is `None`. */
module MefNative {
  import opened Results
  import opened Types
  import opened ServiceCollections

  /** The collection a successful call returns: the same descriptors, and the one new action
      after the ones already recorded. */
  predicate AppendedOne(c: ServiceCollection, r: ServiceCollection, action: MefAction) {
    && SameDescriptors(r, c)
    && |r.mefActions| == |c.mefActions| + 1
    && r.mefActions[..|c.mefActions|] == c.mefActions
    && r.mefActions[|c.mefActions|] == action
  }

  /** The shared shape of every `With*` method: the collection is checked first, then the required
      argument named `parameterName`; the action exists exactly when that argument does. */
  function Record(services: Option<ServiceCollection>, parameterName: string, action: Option<MefAction>)
    : (r: Outcome<ServiceCollection>)
    ensures services.None? ==> r == Failure(ArgumentNull("services"))
    ensures services.Some? && action.None? ==> r == Failure(ArgumentNull(parameterName))
    ensures r.Success? <==> services.Some? && action.Some?
    ensures r.Success? ==> AppendedOne(services.value, r.value, action.value)
  {
    if services.None? then Failure(ArgumentNull("services"))
    else if action.None? then Failure(ArgumentNull(parameterName))
    else Success(AddAction(services.value, action.value))
  }

  function WithProvider(services: Option<ServiceCollection>, exportDescriptorProvider: Option<nat>)
    : (r: Outcome<ServiceCollection>)
    ensures services.None? ==> r == Failure(ArgumentNull("services"))
    ensures services.Some? && exportDescriptorProvider.None? ==> r == Failure(ArgumentNull("exportDescriptorProvider"))
    ensures r.Success? <==> services.Some? && exportDescriptorProvider.Some?
    ensures r.Success? ==> AppendedOne(services.value, r.value, UseProvider(exportDescriptorProvider.value))
  {
    Record(services, "exportDescriptorProvider", if exportDescriptorProvider.Some? then Some(UseProvider(exportDescriptorProvider.value)) else None)
  }

  function WithDefaultConventions(services: Option<ServiceCollection>, conventions: Option<nat>)
    : (r: Outcome<ServiceCollection>)
    ensures services.None? ==> r == Failure(ArgumentNull("services"))
    ensures services.Some? && conventions.None? ==> r == Failure(ArgumentNull("conventions"))
    ensures r.Success? <==> services.Some? && conventions.Some?
    ensures r.Success? ==> AppendedOne(services.value, r.value, UseDefaultConventions(conventions.value))
  {
    Record(services, "conventions", if conventions.Some? then Some(UseDefaultConventions(conventions.value)) else None)
  }

  /** `WithPart(Type, AttributedModelProvider)`: the conventions may be missing. */
  function WithPartUsing(services: Option<ServiceCollection>, partType: Option<Ty>, conventions: Option<nat>)
    : (r: Outcome<ServiceCollection>)
    ensures services.None? ==> r == Failure(ArgumentNull("services"))
    ensures services.Some? && partType.None? ==> r == Failure(ArgumentNull("partType"))
    ensures r.Success? <==> services.Some? && partType.Some?
    ensures r.Success? ==> AppendedOne(services.value, r.value, AddPart(partType.value, conventions))
  {
    Record(services, "partType", if partType.Some? then Some(AddPart(partType.value, conventions)) else None)
  }

  /** `WithPart(Type)`: no conventions. */
  function WithPart(services: Option<ServiceCollection>, partType: Option<Ty>): (r: Outcome<ServiceCollection>)
    ensures r.Success? <==> services.Some? && partType.Some?
    ensures r.Success? ==> AppendedOne(services.value, r.value, AddPart(partType.value, None))
    ensures r.Failure? ==> r.error == ArgumentNull(if services.None? then "services" else "partType")
  {
    WithPartUsing(services, partType, None)
  }

  /** `WithPart<TPart>(AttributedModelProvider)`: the part type is a type argument, never missing. */
  function WithPartOfUsing(services: Option<ServiceCollection>, part: Ty, conventions: Option<nat>)
    : (r: Outcome<ServiceCollection>)
    ensures r.Success? <==> services.Some?
    ensures r.Failure? ==> r.error == ArgumentNull("services")
    ensures r.Success? ==> AppendedOne(services.value, r.value, AddPart(part, conventions))
  {
    WithPartUsing(services, Some(part), conventions)
  }

  /** `WithPart<TPart>()`. */
  function WithPartOf(services: Option<ServiceCollection>, part: Ty): (r: Outcome<ServiceCollection>)
    ensures r.Success? <==> services.Some?
    ensures r.Failure? ==> r.error == ArgumentNull("services")
    ensures r.Success? ==> AppendedOne(services.value, r.value, AddPart(part, None))
  {
    WithPartOfUsing(services, part, None)
  }

  /** `WithParts(IEnumerable<Type>, AttributedModelProvider)`. */
  function WithPartsUsing(services: Option<ServiceCollection>, partTypes: Option<seq<Ty>>, conventions: Option<nat>)
    : (r: Outcome<ServiceCollection>)
    ensures services.None? ==> r == Failure(ArgumentNull("services"))
    ensures services.Some? && partTypes.None? ==> r == Failure(ArgumentNull("partTypes"))
    ensures r.Success? <==> services.Some? && partTypes.Some?
    ensures r.Success? ==> AppendedOne(services.value, r.value, AddParts(partTypes.value, conventions))
  {
    Record(services, "partTypes", if partTypes.Some? then Some(AddParts(partTypes.value, conventions)) else None)
  }

  /** `WithParts(IEnumerable<Type>)`. */
  function WithParts(services: Option<ServiceCollection>, partTypes: Option<seq<Ty>>): (r: Outcome<ServiceCollection>)
    ensures r.Success? <==> services.Some? && partTypes.Some?
    ensures r.Success? ==> AppendedOne(services.value, r.value, AddParts(partTypes.value, None))
    ensures r.Failure? ==> r.error == ArgumentNull(if services.None? then "services" else "partTypes")
  {
    WithPartsUsing(services, partTypes, None)
  }

  /** `WithParts(params Type[])`: the array is passed on as the enumeration. */
  function WithPartsArray(services: Option<ServiceCollection>, partTypes: Option<seq<Ty>>): (r: Outcome<ServiceCollection>)
    ensures r.Success? <==> services.Some? && partTypes.Some?
    ensures r.Success? ==> AppendedOne(services.value, r.value, AddParts(partTypes.value, None))
    ensures r.Failure? ==> r.error == ArgumentNull(if services.None? then "services" else "partTypes")
  {
    WithParts(services, partTypes)
  }

  /** `WithAssembly(Assembly, AttributedModelProvider)`. */
  function WithAssemblyUsing(services: Option<ServiceCollection>, assembly: Option<nat>, conventions: Option<nat>)
    : (r: Outcome<ServiceCollection>)
    ensures services.None? ==> r == Failure(ArgumentNull("services"))
    ensures services.Some? && assembly.None? ==> r == Failure(ArgumentNull("assembly"))
    ensures r.Success? <==> services.Some? && assembly.Some?
    ensures r.Success? ==> AppendedOne(services.value, r.value, AddAssembly(assembly.value, conventions))
  {
    Record(services, "assembly", if assembly.Some? then Some(AddAssembly(assembly.value, conventions)) else None)
  }

  /** `WithAssembly(Assembly)`. */
  function WithAssembly(services: Option<ServiceCollection>, assembly: Option<nat>): (r: Outcome<ServiceCollection>)
    ensures r.Success? <==> services.Some? && assembly.Some?
    ensures r.Success? ==> AppendedOne(services.value, r.value, AddAssembly(assembly.value, None))
    ensures r.Failure? ==> r.error == ArgumentNull(if services.None? then "services" else "assembly")
  {
    WithAssemblyUsing(services, assembly, None)
  }

  /** `WithAssemblies(IEnumerable<Assembly>, AttributedModelProvider)`. */
  function WithAssembliesUsing(services: Option<ServiceCollection>, assemblies: Option<seq<nat>>, conventions: Option<nat>)
    : (r: Outcome<ServiceCollection>)
    ensures services.None? ==> r == Failure(ArgumentNull("services"))
    ensures services.Some? && assemblies.None? ==> r == Failure(ArgumentNull("assemblies"))
    ensures r.Success? <==> services.Some? && assemblies.Some?
    ensures r.Success? ==> AppendedOne(services.value, r.value, AddAssemblies(assemblies.value, conventions))
  {
    Record(services, "assemblies", if assemblies.Some? then Some(AddAssemblies(assemblies.value, conventions)) else None)
  }

  /** `WithAssemblies(IEnumerable<Assembly>)`. */
  function WithAssemblies(services: Option<ServiceCollection>, assemblies: Option<seq<nat>>): (r: Outcome<ServiceCollection>)
    ensures r.Success? <==> services.Some? && assemblies.Some?
    ensures r.Success? ==> AppendedOne(services.value, r.value, AddAssemblies(assemblies.value, None))
    ensures r.Failure? ==> r.error == ArgumentNull(if services.None? then "services" else "assemblies")
  {
    WithAssembliesUsing(services, assemblies, None)
  }

  /** One builder call of a fluent chain, with its arguments. */
  datatype Call =
    | ProviderCall(exportDescriptorProvider: Option<nat>)
    | DefaultConventionsCall(defaultConventions: Option<nat>)
    | PartCall(partType: Option<Ty>, partConventions: Option<nat>)
    | PartsCall(partTypes: Option<seq<Ty>>, partsConventions: Option<nat>)
    | AssemblyCall(assembly: Option<nat>, assemblyConventions: Option<nat>)
    | AssembliesCall(assemblies: Option<seq<nat>>, assembliesConventions: Option<nat>)

  /** The call's required argument is present. */
  predicate HasRequiredArgument(call: Call) {
    match call
    case ProviderCall(p) => p.Some?
    case DefaultConventionsCall(c) => c.Some?
    case PartCall(t, _) => t.Some?
    case PartsCall(ts, _) => ts.Some?
    case AssemblyCall(a, _) => a.Some?
    case AssembliesCall(as_, _) => as_.Some?
  }

  /** The name of the call's required parameter. */
  function RequiredParameter(call: Call): string {
    match call
    case ProviderCall(_) => "exportDescriptorProvider"
    case DefaultConventionsCall(_) => "conventions"
    case PartCall(_, _) => "partType"
    case PartsCall(_, _) => "partTypes"
    case AssemblyCall(_, _) => "assembly"
    case AssembliesCall(_, _) => "assemblies"
  }

  /** The action a call records. */
  function ActionOf(call: Call): MefAction
    requires HasRequiredArgument(call)
  {
    match call
    case ProviderCall(p) => UseProvider(p.value)
    case DefaultConventionsCall(c) => UseDefaultConventions(c.value)
    case PartCall(t, c) => AddPart(t.value, c)
    case PartsCall(ts, c) => AddParts(ts.value, c)
    case AssemblyCall(a, c) => AddAssembly(a.value, c)
    case AssembliesCall(as_, c) => AddAssemblies(as_.value, c)
  }

  /** Dispatch of one call to its `With*` method. */
  function Apply(services: Option<ServiceCollection>, call: Call): (r: Outcome<ServiceCollection>)
    ensures r.Success? <==> services.Some? && HasRequiredArgument(call)
    ensures services.Some? && !HasRequiredArgument(call) ==> r == Failure(ArgumentNull(RequiredParameter(call)))
    ensures r.Success? ==> AppendedOne(services.value, r.value, ActionOf(call))
  {
    match call
    case ProviderCall(p) => WithProvider(services, p)
    case DefaultConventionsCall(c) => WithDefaultConventions(services, c)
    case PartCall(t, c) => WithPartUsing(services, t, c)
    case PartsCall(ts, c) => WithPartsUsing(services, ts, c)
    case AssemblyCall(a, c) => WithAssemblyUsing(services, a, c)
    case AssembliesCall(as_, c) => WithAssembliesUsing(services, as_, c)
  }

  /** The actions of calls that all have their required argument, in call order. */
  function ActionsOf(calls: seq<Call>): (r: seq<MefAction>)
    requires forall i :: 0 <= i < |calls| ==> HasRequiredArgument(calls[i])
    ensures |r| == |calls|
    ensures forall i :: 0 <= i < |calls| ==> r[i] == ActionOf(calls[i])
  {
    if calls == [] then [] else [ActionOf(calls[0])] + ActionsOf(calls[1..])
  }

  /** The position of the first call missing its required argument, or the number of calls. */
  function FirstMissing(calls: seq<Call>): (k: nat)
    ensures k <= |calls|
    ensures forall j :: 0 <= j < k ==> HasRequiredArgument(calls[j])
    ensures k < |calls| ==> !HasRequiredArgument(calls[k])
  {
    if calls == [] || !HasRequiredArgument(calls[0]) then 0 else 1 + FirstMissing(calls[1..])
  }

  /** Splitting off the first call of a prefix of calls that all have their argument. */
  lemma PrefixActions(calls: seq<Call>)
    requires calls != [] && HasRequiredArgument(calls[0])
    ensures FirstMissing(calls) == 1 + FirstMissing(calls[1..])
    ensures ActionsOf(calls[..FirstMissing(calls)])
            == [ActionOf(calls[0])] + ActionsOf(calls[1..][..FirstMissing(calls[1..])])
  {
    var k := FirstMissing(calls);
    assert calls[1..][..k - 1] == calls[..k][1..];
  }

  /** What a chain leaves behind: every descriptor untouched, the actions of the calls before the
      first one missing its argument, and the exception that call raised, if any. */
  predicate StopsAtFirstMissing(c: ServiceCollection, calls: seq<Call>, r: (ServiceCollection, Option<Error>)) {
    && r.0.descriptors == c.descriptors
    && (FirstMissing(calls) == |calls| ==> r.1 == None)
    && (FirstMissing(calls) < |calls| ==> r.1 == Some(ArgumentNull(RequiredParameter(calls[FirstMissing(calls)]))))
    && r.0.mefActions == c.mefActions + ActionsOf(calls[..FirstMissing(calls)])
  }

  /** A fluent chain of calls on one collection. Each call mutates the collection it returns, so
      when a call throws, the calls before it have already recorded their actions: the result is
      the collection as the chain left it and the exception, if any. */
  function Chain(c: ServiceCollection, calls: seq<Call>): (r: (ServiceCollection, Option<Error>))
    ensures StopsAtFirstMissing(c, calls, r)
    decreases |calls|
  {
    if calls == [] then
      assert c.mefActions + [] == c.mefActions;
      (c, None)
    else if !HasRequiredArgument(calls[0]) then
      assert FirstMissing(calls) == 0 && calls[..0] == [];
      assert c.mefActions + [] == c.mefActions;
      ApplyRejects(c, calls[0]);
      (c, Some(Apply(Some(c), calls[0]).error))
    else
      var r := Chain(AddAction(c, ActionOf(calls[0])), calls[1..]);
      ChainStep(c, calls, r);
      r
  }

  /** The inductive step of `Chain`: what the rest of the chain leaves after a successful first
      call is what the whole chain leaves. */
  lemma ChainStep(c: ServiceCollection, calls: seq<Call>, r: (ServiceCollection, Option<Error>))
    requires calls != [] && HasRequiredArgument(calls[0])
    requires StopsAtFirstMissing(AddAction(c, ActionOf(calls[0])), calls[1..], r)
    ensures StopsAtFirstMissing(c, calls, r)
  {
    var c' := AddAction(c, ActionOf(calls[0]));
    assert c'.descriptors == c.descriptors && c'.mefActions == c.mefActions + [ActionOf(calls[0])];
    StepError(calls, r.1);
    StepActions(c.mefActions, calls, r.0.mefActions);
  }

  /** The exception of a chain whose first call succeeds is the exception of the rest. */
  lemma StepError(calls: seq<Call>, e: Option<Error>)
    requires calls != [] && HasRequiredArgument(calls[0])
    requires FirstMissing(calls[1..]) == |calls[1..]| ==> e == None
    requires FirstMissing(calls[1..]) < |calls[1..]| ==>
               e == Some(ArgumentNull(RequiredParameter(calls[1..][FirstMissing(calls[1..])])))
    ensures FirstMissing(calls) == |calls| ==> e == None
    ensures FirstMissing(calls) < |calls| ==> e == Some(ArgumentNull(RequiredParameter(calls[FirstMissing(calls)])))
  {
    var k := FirstMissing(calls);
    assert k == 1 + FirstMissing(calls[1..]);
    assert k < |calls| ==> calls[k] == calls[1..][k - 1];
  }

  /** The actions of a chain whose first call succeeds are that call's action followed by the
      actions of the rest. */
  lemma StepActions(base: seq<MefAction>, calls: seq<Call>, acts: seq<MefAction>)
    requires calls != [] && HasRequiredArgument(calls[0])
    requires acts == (base + [ActionOf(calls[0])]) + ActionsOf(calls[1..][..FirstMissing(calls[1..])])
    ensures acts == base + ActionsOf(calls[..FirstMissing(calls)])
  {
    var head := [ActionOf(calls[0])];
    var rest := ActionsOf(calls[1..][..FirstMissing(calls[1..])]);
    var all := ActionsOf(calls[..FirstMissing(calls)]);
    assert all == head + rest by {
      PrefixActions(calls);
    }
    SeqAssoc(base, head, rest);
  }

  /** A call without its argument raises the exception naming that argument. */
  lemma ApplyRejects(c: ServiceCollection, call: Call)
    requires !HasRequiredArgument(call)
    ensures Apply(Some(c), call) == Failure(ArgumentNull(RequiredParameter(call)))
  {
  }

  /** A call with its argument returns the collection with its action appended. */
  lemma ApplyAppends(c: ServiceCollection, call: Call)
    requires HasRequiredArgument(call)
    ensures Apply(Some(c), call) == Success(AddAction(c, ActionOf(call)))
  {
    var r := Apply(Some(c), call).value;
    assert r.mefActions == c.mefActions + [ActionOf(call)];
    assert r.descriptors == c.descriptors by {
      assert forall i :: 0 <= i < |c.descriptors| ==> Get(r, i) == Get(c, i);
    }
  }

  /** Every call of a successful chain records one action, and the chain as a whole touches no
      descriptor: its action list grows by exactly the number of calls. */
  lemma SuccessfulChainAppendsOnePerCall(c: ServiceCollection, calls: seq<Call>)
    requires forall i :: 0 <= i < |calls| ==> HasRequiredArgument(calls[i])
    ensures Chain(c, calls).1 == None
    ensures |Chain(c, calls).0.mefActions| == |c.mefActions| + |calls|
    ensures Chain(c, calls).0.descriptors == c.descriptors
  {
    assert FirstMissing(calls) == |calls|;
    assert calls[..|calls|] == calls;
  }

  /** A throwing call records nothing: a chain that fails at call `k` holds exactly the actions of
      the calls before `k`, and the remaining calls never run. */
  lemma ThrowingCallRecordsNothing(c: ServiceCollection, front: seq<Call>, bad: Call, back: seq<Call>)
    requires forall i :: 0 <= i < |front| ==> HasRequiredArgument(front[i])
    requires !HasRequiredArgument(bad)
    ensures var (r, e) := Chain(c, front + [bad] + back);
            && e == Some(ArgumentNull(RequiredParameter(bad)))
            && r.mefActions == c.mefActions + ActionsOf(front)
  {
    var calls := front + [bad] + back;
    assert calls[|front|] == bad;
    assert forall j :: 0 <= j < |front| ==> calls[j] == front[j];
    assert FirstMissing(calls) == |front|;
    assert calls[..|front|] == front;
  }
}

=== FILE: collections.dfy ===
/** The two-list service collections (`MefServiceCollection` and `ServiceCollection`): a list of
    service descriptors, which the container reads, and an independent list of MEF configuration
    actions, which the builder extensions append to. The two classes behave identically; only
    `MefServiceCollection` has a copying constructor. A collection is modelled as a value, and a
    mutating member returns the updated value. */
module ServiceCollections {
  import opened Results
  import opened Types

  /** A deferred `ContainerConfiguration` call, recorded with the arguments it captured. Providers,
      convention builders and assemblies are opaque references, named by labels. */
  datatype MefAction =
    | UseProvider(provider: nat)
    | UseDefaultConventions(defaultConventions: nat)
    | AddPart(partType: Ty, conventions: Option<nat>)
    | AddParts(partTypes: seq<Ty>, conventions: Option<nat>)
    | AddAssembly(assembly: nat, conventions: Option<nat>)
    | AddAssemblies(assemblies: seq<nat>, conventions: Option<nat>)

  /** A reference to a `ServiceDescriptor` object: `id` is the object's identity and
      `registration` its immutable content. `ServiceDescriptor` does not override `Equals`, so
      the descriptor list compares references, and two distinct objects with equal content are
      told apart. */
  datatype DescriptorRef = DescriptorRef(id: nat, registration: Registration)

  datatype ServiceCollection = ServiceCollection(descriptors: seq<DescriptorRef>, mefActions: seq<MefAction>)

  /** `Count`: the number of service descriptors. */
  function Count(c: ServiceCollection): (n: nat)
    ensures n == 0 <==> c.descriptors == []
    ensures forall i :: 0 <= i < n ==> Get(c, i).Success?
    ensures Get(c, n).Failure?
  {
    |c.descriptors|
  }

  /** `IsReadOnly`: a collection can always be changed. */
  function IsReadOnly(c: ServiceCollection): (r: bool)
    ensures !r
  {
    false
  }

  /** The indexer's getter: the descriptor at a position, or an out-of-range failure. */
  function Get(c: ServiceCollection, index: int): (r: Outcome<DescriptorRef>)
    ensures r.Failure? <==> index < 0 || index >= |c.descriptors|
    ensures r.Failure? ==> r.error == ArgumentOutOfRange(index)
    ensures r.Success? ==> r.value in c.descriptors
  {
    if 0 <= index < |c.descriptors| then Success(c.descriptors[index]) else Failure(ArgumentOutOfRange(index))
  }

  /** The observable content of a collection is its count and its descriptors by position. */
  predicate SameDescriptors(a: ServiceCollection, b: ServiceCollection) {
    Count(a) == Count(b) && forall i :: 0 <= i < Count(a) ==> Get(a, i) == Get(b, i)
  }

  /** The default constructor, the same in both classes: both lists empty. */
  function NewMefServiceCollection(): (c: ServiceCollection)
    ensures Count(c) == 0 && c.mefActions == []
  {
    ServiceCollection([], [])
  }

  /** The copying constructor of `MefServiceCollection`: the given descriptors, in order, and no
      actions. A missing source enumeration is rejected by the list it is copied into. */
  function MefServiceCollectionFrom(services: Option<seq<DescriptorRef>>): (r: Outcome<ServiceCollection>)
    ensures services.None? ==> r == Failure(ArgumentNull("collection"))
    ensures services.Some? ==>
              && r.Success?
              && Count(r.value) == |services.value|
              && (forall i :: 0 <= i < |services.value| ==> Get(r.value, i) == Success(services.value[i]))
              && r.value.mefActions == []
  {
    match services
    case None => Failure(ArgumentNull("collection"))
    case Some(ds) => Success(ServiceCollection(ds, []))
  }

  /** The indexer's setter: replaces one descriptor. */
  function Set(c: ServiceCollection, index: int, item: DescriptorRef): (r: Outcome<ServiceCollection>)
    ensures r.Failure? <==> Get(c, index).Failure?
    ensures r.Failure? ==> r.error == ArgumentOutOfRange(index)
    ensures r.Success? ==>
              && Count(r.value) == Count(c)
              && Get(r.value, index) == Success(item)
              && (forall j :: 0 <= j < Count(c) && j != index ==> Get(r.value, j) == Get(c, j))
              && r.value.mefActions == c.mefActions
  {
    if 0 <= index < |c.descriptors| then Success(c.(descriptors := c.descriptors[index := item]))
    else Failure(ArgumentOutOfRange(index))
  }

  /** `Clear`: empties the descriptor list only; the recorded actions survive. */
  function Clear(c: ServiceCollection): (r: ServiceCollection)
    ensures Count(r) == 0
    ensures r.mefActions == c.mefActions
  {
    c.(descriptors := [])
  }

  /** `Contains`: whether the very descriptor object is present; an equal copy does not count. */
  function Contains(c: ServiceCollection, item: DescriptorRef): (r: bool)
    ensures r <==> exists i :: 0 <= i < Count(c) && Get(c, i).value.id == item.id
  {
    var k := IndexOf(c, item);
    if k >= 0 then
      assert Get(c, k).value.id == item.id;
      true
    else false
  }

  /** `IndexOf`: the position of the first reference to the item's object, or -1. */
  function IndexOf(c: ServiceCollection, item: DescriptorRef): (r: int)
    ensures -1 <= r < Count(c)
    ensures r == -1 <==> forall i :: 0 <= i < |c.descriptors| ==> c.descriptors[i].id != item.id
    ensures r >= 0 ==> c.descriptors[r].id == item.id && forall j :: 0 <= j < r ==> c.descriptors[j].id != item.id
    decreases |c.descriptors|
  {
    if c.descriptors == [] then -1
    else if c.descriptors[0].id == item.id then 0
    else
      var rest := IndexOf(c.(descriptors := c.descriptors[1..]), item);
      assert forall i :: 1 <= i < |c.descriptors| ==> c.descriptors[i] == c.descriptors[1..][i - 1];
      if rest == -1 then -1 else rest + 1
  }

  /** `Add` through `ICollection<ServiceDescriptor>`: appends a descriptor, leaving the actions. */
  function AddDescriptor(c: ServiceCollection, item: DescriptorRef): (r: ServiceCollection)
    ensures Count(r) == Count(c) + 1
    ensures Get(r, Count(c)) == Success(item)
    ensures forall i :: 0 <= i < Count(c) ==> Get(r, i) == Get(c, i)
    ensures r.mefActions == c.mefActions
  {
    c.(descriptors := c.descriptors + [item])
  }

  /** `Add` through `IMefServiceCollection`: appends an action, leaving the descriptors. */
  function AddAction(c: ServiceCollection, action: MefAction): (r: ServiceCollection)
    ensures SameDescriptors(r, c)
    ensures |r.mefActions| == |c.mefActions| + 1
    ensures r.mefActions[|c.mefActions|] == action
    ensures r.mefActions[..|c.mefActions|] == c.mefActions
  {
    c.(mefActions := c.mefActions + [action])
  }

  /** `Insert`: the item goes at `index`, later descriptors move up one; `index` may equal the
      count, which appends. */
  function Insert(c: ServiceCollection, index: int, item: DescriptorRef): (r: Outcome<ServiceCollection>)
    ensures r.Failure? <==> index < 0 || index > Count(c)
    ensures r.Failure? ==> r.error == ArgumentOutOfRange(index)
    ensures r.Success? ==>
              && Count(r.value) == Count(c) + 1
              && Get(r.value, index) == Success(item)
              && (forall j :: 0 <= j < index ==> Get(r.value, j) == Get(c, j))
              && (forall j :: index < j <= Count(c) ==> Get(r.value, j) == Get(c, j - 1))
              && r.value.mefActions == c.mefActions
  {
    if 0 <= index <= |c.descriptors| then
      Success(c.(descriptors := c.descriptors[..index] + [item] + c.descriptors[index..]))
    else Failure(ArgumentOutOfRange(index))
  }

  /** `RemoveAt`: the descriptor at `index` goes, later descriptors move down one. */
  function RemoveAt(c: ServiceCollection, index: int): (r: Outcome<ServiceCollection>)
    ensures r.Failure? <==> Get(c, index).Failure?
    ensures r.Failure? ==> r.error == ArgumentOutOfRange(index)
    ensures r.Success? ==>
              && Count(r.value) == Count(c) - 1
              && (forall j :: 0 <= j < index ==> Get(r.value, j) == Get(c, j))
              && (forall j :: index <= j < Count(c) - 1 ==> Get(r.value, j) == Get(c, j + 1))
              && r.value.mefActions == c.mefActions
  {
    if 0 <= index < |c.descriptors| then
      Success(c.(descriptors := c.descriptors[..index] + c.descriptors[index + 1..]))
    else Failure(ArgumentOutOfRange(index))
  }

  /** `Remove`: removes the first reference to the item's object, reporting whether there was one. */
  function Remove(c: ServiceCollection, item: DescriptorRef): (r: (bool, ServiceCollection))
    ensures r.0 <==> Contains(c, item)
    ensures !r.0 ==> r.1 == c
    ensures r.0 ==> Success(r.1) == RemoveAt(c, IndexOf(c, item))
  {
    var k := IndexOf(c, item);
    if k == -1 then (false, c) else (true, RemoveAt(c, k).value)
  }

  /** `Contains` and `IndexOf` agree. */
  lemma ContainsAgreesWithIndexOf(c: ServiceCollection, item: DescriptorRef)
    ensures Contains(c, item) <==> IndexOf(c, item) >= 0
    ensures Contains(c, item) ==> Get(c, IndexOf(c, item)).Success? && Get(c, IndexOf(c, item)).value.id == item.id
  {
  }

  /** Identity, not content, decides membership: a copy of a stored descriptor with equal content
      but another identity is neither contained, found nor removed, while the stored object is. */
  lemma EqualCopyIsNotTheDescriptor(c: ServiceCollection, i: int, copyId: nat)
    requires Get(c, i).Success?
    requires forall j :: 0 <= j < Count(c) ==> Get(c, j).value.id != copyId
    ensures Contains(c, Get(c, i).value)
    ensures var copy := DescriptorRef(copyId, Get(c, i).value.registration);
            && copy.registration == Get(c, i).value.registration
            && !Contains(c, copy) && IndexOf(c, copy) == -1 && Remove(c, copy) == (false, c)
  {
  }

  /** Removing one occurrence removes exactly one reference to the item's object and nothing else. */
  lemma RemoveTakesOneOccurrence(c: ServiceCollection, item: DescriptorRef)
    requires Contains(c, item)
    ensures var found := c.descriptors[IndexOf(c, item)];
            && found.id == item.id
            && multiset(Remove(c, item).1.descriptors) + multiset{found} == multiset(c.descriptors)
  {
    var k := IndexOf(c, item);
    var ds := c.descriptors;
    var found := ds[k];
    assert ds == ds[..k] + [found] + ds[k + 1..];
    calc {
      multiset(ds);
      multiset(ds[..k] + [found] + ds[k + 1..]);
      multiset(ds[..k]) + multiset{found} + multiset(ds[k + 1..]);
      multiset(ds[..k] + ds[k + 1..]) + multiset{found};
    }
  }

  /** Inserting and then removing at the same position gives back the collection. */
  lemma InsertThenRemoveAt(c: ServiceCollection, index: int, item: DescriptorRef)
    requires Insert(c, index, item).Success?
    ensures RemoveAt(Insert(c, index, item).value, index) == Success(c)
  {
    var ds := c.descriptors;
    var ins := ds[..index] + [item] + ds[index..];
    assert ins[..index] == ds[..index];
    assert ins[index + 1..] == ds[index..];
    assert ds[..index] + ds[index..] == ds;
  }

  /** Removing a descriptor and inserting it back at its position gives back the collection. */
  lemma RemoveAtThenInsert(c: ServiceCollection, index: int)
    requires Get(c, index).Success?
    ensures Insert(RemoveAt(c, index).value, index, Get(c, index).value) == Success(c)
  {
    var ds := c.descriptors;
    var rem := ds[..index] + ds[index + 1..];
    assert rem[..index] == ds[..index];
    assert rem[index..] == ds[index + 1..];
    assert ds[..index] + [ds[index]] + ds[index + 1..] == ds;
  }

  /** Writing through the indexer the value already there changes nothing; setting twice keeps
      only the second write. */
  lemma SetGetRoundTrip(c: ServiceCollection, index: int, x: DescriptorRef, y: DescriptorRef)
    requires Get(c, index).Success?
    ensures Set(c, index, Get(c, index).value) == Success(c)
    ensures Set(Set(c, index, x).value, index, y) == Set(c, index, y)
  {
    var ds := c.descriptors;
    assert ds[index := ds[index]] == ds;
    assert ds[index := x][index := y] == ds[index := y];
  }

  /** Adding a descriptor object that was absent and removing it gives back the collection. */
  lemma AddThenRemove(c: ServiceCollection, item: DescriptorRef)
    requires !Contains(c, item)
    ensures Remove(AddDescriptor(c, item), item) == (true, c)
  {
    var ds := c.descriptors + [item];
    assert IndexOf(AddDescriptor(c, item), item) == |c.descriptors|;
    assert ds[..|c.descriptors|] == c.descriptors;
    assert ds[|c.descriptors| + 1..] == [];
    assert c.descriptors + [] == c.descriptors;
  }

  /** The two lists are independent: descriptor operations never touch the actions and adding an
      action never touches the descriptors, in either order. */
  lemma ListsAreIndependent(c: ServiceCollection, item: DescriptorRef, action: MefAction)
    ensures AddAction(AddDescriptor(c, item), action) == AddDescriptor(AddAction(c, action), item)
    ensures AddAction(Clear(c), action) == Clear(AddAction(c, action))
  {
  }
}

=== FILE: container.dfy ===
/** Building the container from a service collection (`CreateContainer` and
    `BuildServiceProvider` in both generations' `ServiceCollectionExtensions`). Each registration
    is classified by what it supplies, in the priority instance, factory, type; the newer
    generation parks open-generic registrations in one bucket whose provider comes before every
    closed provider, so that, with the aggregate's last-wins rule, a closed registration always
    overrides an open one. */
module Container {
  import opened Results
  import opened Types
  import opened Lifetimes
  import opened Promises
  import opened Providers
  import opened Aggregate
  import TypeExports
  import OpenGenericExports

  /** Where one registration goes: a closed provider, or the open-generic bucket. */
  datatype Placement = Closed(provider: Provider) | OpenBucket

  /** A registration that supplies only an implementation type. */
  predicate ByTypeOnly(d: Registration) {
    d.implementationInstance.None? && d.implementationFactory.None? && d.implementationType.Some?
  }

  /** The classification of one registration: instance first, then factory, then type; a
      registration supplying none of the three is not implemented. */
  function Classify(d: Registration, generation: Generation): (r: Outcome<Placement>)
    ensures d.implementationInstance.Some? ==>
              r == Success(Closed(InstanceExport(d.serviceType, d.implementationInstance.value)))
    ensures d.implementationInstance.None? && d.implementationFactory.Some? ==>
              r == Success(Closed(FactoryExport(d.serviceType, d.implementationFactory.value, d.lifetime)))
    ensures d.implementationInstance.None? && d.implementationFactory.None? && d.implementationType.None? ==>
              r == Failure(NotImplemented)
    ensures r.Success? && r.value.OpenBucket? <==>
              ByTypeOnly(d) && generation == MefExtensions && d.serviceType.IsGenericTypeDefinition()
    ensures ByTypeOnly(d) && !(generation == MefExtensions && d.serviceType.IsGenericTypeDefinition()) ==>
              && (r.Success? <==> TypeExports.Activatable(d.implementationType.value))
              && (r.Success? ==> r.value == Closed(TypeExport(TypeExports.NewTypeProvider(d, generation).value)))
              && (r.Failure? ==> r.error == TypeCannotBeActivated(d.implementationType.value, d.serviceType))
    ensures r.Success? && r.value.Closed? ==> !r.value.provider.OpenGenericExport?
    ensures r.Success? && r.value.Closed? ==> ServiceTypeOf(r.value.provider) == d.serviceType
  {
    if d.implementationInstance.Some? then
      Success(Closed(InstanceExport(d.serviceType, d.implementationInstance.value)))
    else if d.implementationFactory.Some? then
      Success(Closed(FactoryExport(d.serviceType, d.implementationFactory.value, d.lifetime)))
    else if d.implementationType.Some? then
      if generation == MefExtensions && d.serviceType.IsGenericTypeDefinition() then Success(OpenBucket)
      else
        var t :- TypeExports.NewTypeProvider(d, generation);
        Success(Closed(TypeExport(t)))
    else Failure(NotImplemented)
  }

  /** A registration the newer generation parks in the open-generic bucket. */
  predicate IsOpenRegistration(d: Registration, generation: Generation) {
    ByTypeOnly(d) && generation == MefExtensions && d.serviceType.IsGenericTypeDefinition()
  }

  /** The open-generic bucket: the open registrations in registration order. */
  function OpenRegistrations(regs: seq<Registration>, generation: Generation): (r: seq<Registration>)
    ensures forall d :: d in r <==> d in regs && IsOpenRegistration(d, generation)
    ensures generation == Okra ==> r == []
  {
    if regs == [] then []
    else
      assert regs == [regs[0]] + regs[1..];
      (if IsOpenRegistration(regs[0], generation) then [regs[0]] else []) + OpenRegistrations(regs[1..], generation)
  }

  /** The classification loop: the closed providers in registration order. It stops at the first
      registration that fails. */
  function Sort(regs: seq<Registration>, generation: Generation): (r: Outcome<seq<Provider>>)
    ensures r.Success? <==> forall d :: d in regs ==> Classify(d, generation).Success?
    ensures r.Success? ==> forall p :: p in r.value ==> !p.OpenGenericExport?
    ensures r.Success? && generation == Okra ==> |r.value| == |regs|
  {
    if regs == [] then Success([])
    else
      var first := Classify(regs[0], generation);
      assert regs == [regs[0]] + regs[1..];
      if first.Failure? then Failure(first.error)
      else
        var rest :- Sort(regs[1..], generation);
        if first.value.OpenBucket? then Success(rest) else Success([first.value.provider] + rest)
  }

  /** The classification loop reports the first registration, in order, that cannot be classified. */
  lemma {:induction false} FirstFailingRegistrationReported(regs: seq<Registration>, generation: Generation)
    requires Sort(regs, generation).Failure?
    ensures exists k :: 0 <= k < |regs| && Classify(regs[k], generation).Failure?
                        && Sort(regs, generation).error == Classify(regs[k], generation).error
                        && forall j :: 0 <= j < k ==> Classify(regs[j], generation).Success?
    decreases |regs|
  {
    if Classify(regs[0], generation).Success? {
      FirstFailingRegistrationReported(regs[1..], generation);
      var k :| 0 <= k < |regs[1..]| && Classify(regs[1..][k], generation).Failure?
               && Sort(regs[1..], generation).error == Classify(regs[1..][k], generation).error
               && forall j :: 0 <= j < k ==> Classify(regs[1..][j], generation).Success?;
      assert regs[k + 1] == regs[1..][k];
      forall j | 0 <= j < k + 1 ensures Classify(regs[j], generation).Success? {
        if j > 0 {
          assert regs[j] == regs[1..][j - 1];
        }
      }
    }
  }

  /** `CreateContainer`: every registration is classified first, so a malformed closed
      registration is reported before any open one; the newer generation then builds the one
      open-generic provider, which validates its whole bucket, and puts it first. */
  function CreateContainer(regs: seq<Registration>, generation: Generation): (r: Outcome<seq<Provider>>)
    ensures r.Success? <==>
              && (forall d :: d in regs ==> Classify(d, generation).Success?)
              && (forall d :: d in regs && IsOpenRegistration(d, generation) ==> OpenGenericExports.OpenRegistrationValid(d))
    ensures Sort(regs, generation).Failure? ==> r == Failure(Sort(regs, generation).error)
    ensures Sort(regs, generation).Success? && generation == MefExtensions && r.Failure? ==>
              && OpenGenericExports.NewOpenGenericProvider(OpenRegistrations(regs, generation)).Failure?
              && r == Failure(OpenGenericExports.NewOpenGenericProvider(OpenRegistrations(regs, generation)).error)
    ensures r.Success? ==> AllWellFormed(r.value)
    ensures r.Success? && generation == MefExtensions ==>
              && |r.value| >= 1
              && r.value[0] == OpenGenericExport(OpenGenericExports.OpenGenericProvider(OpenRegistrations(regs, generation)))
              && r.value[1..] == Sort(regs, generation).value
    ensures r.Success? && generation == Okra ==> r.value == Sort(regs, generation).value && |r.value| == |regs|
    ensures r.Success? ==> forall i :: 0 <= i < |r.value| ==> (r.value[i].OpenGenericExport? <==> generation == MefExtensions && i == 0)
  {
    var closed :- Sort(regs, generation);
    if generation == Okra then
      Success(closed)
    else
      var bucket := OpenRegistrations(regs, generation);
      BucketValidity(regs, generation);
      var open :- OpenGenericExports.NewOpenGenericProvider(bucket);
      OpenProviderLeads(open, closed);
      Success([OpenGenericExport(open)] + closed)
  }

  /** The bucket validates iff every open registration is valid. */
  lemma BucketValidity(regs: seq<Registration>, generation: Generation)
    ensures OpenGenericExports.NewOpenGenericProvider(OpenRegistrations(regs, generation)).Success?
            <==> forall d :: d in regs && IsOpenRegistration(d, generation) ==> OpenGenericExports.OpenRegistrationValid(d)
  {
    var bucket := OpenRegistrations(regs, generation);
    assert forall i :: 0 <= i < |bucket| ==> bucket[i] in bucket;
  }

  /** The open-generic provider put before the closed ones is the only open one, and the closed
      ones follow it unchanged. */
  lemma OpenProviderLeads(open: OpenGenericExports.OpenGenericProvider, closed: seq<Provider>)
    requires OpenGenericExports.AllImplemented(open.descriptors)
    requires forall p :: p in closed ==> !p.OpenGenericExport?
    ensures var all := [OpenGenericExport(open)] + closed;
            && AllWellFormed(all)
            && all[1..] == closed
            && forall i :: 0 <= i < |all| ==> (all[i].OpenGenericExport? <==> i == 0)
  {
    var all := [OpenGenericExport(open)] + closed;
    assert forall i :: 1 <= i < |all| ==> all[i] == closed[i - 1];
  }

  /** Classification keeps registration order: sorting a concatenation concatenates the sorts. */
  lemma {:induction false} SortDistributes(a: seq<Registration>, b: seq<Registration>, generation: Generation)
    ensures Sort(a + b, generation).Success? <==> Sort(a, generation).Success? && Sort(b, generation).Success?
    ensures Sort(a + b, generation).Success? ==>
              Sort(a + b, generation).value == Sort(a, generation).value + Sort(b, generation).value
    decreases |a|
  {
    if a == [] {
      assert a + b == b;
    } else {
      assert (a + b)[0] == a[0];
      assert (a + b)[1..] == a[1..] + b;
      SortDistributes(a[1..], b, generation);
      var first := Classify(a[0], generation);
      if first.Success? && Sort(a[1..], generation).Success? && Sort(b, generation).Success? {
        var ra, rb := Sort(a[1..], generation).value, Sort(b, generation).value;
        if first.value.Closed? {
          assert [first.value.provider] + (ra + rb) == ([first.value.provider] + ra) + rb;
        }
      }
    }
  }

  /** Closed providers never fail, and those answering other service types answer nothing. */
  lemma {:induction false} ClosedProvidersAnswerNothingElse(ps: seq<Provider>, contract: Contract, env: Env)
    requires forall p :: p in ps ==> !p.OpenGenericExport? && ServiceTypeOf(p) != contract.contractType
    ensures AllWellFormed(ps)
    ensures Concatenated(ps, contract, env) == Success([])
    decreases |ps|
  {
    if ps != [] {
      assert ps == [ps[0]] + ps[1..];
      ClosedProvidersAnswerNothingElse(ps[1..], contract, env);
      assert GetExportDescriptors(ps[0], contract, env) == Success([]);
      assert Concatenated(ps[1..], contract, env) == Success([]);
      assert Concatenated(ps, contract, env)
             == Success(GetExportDescriptors(ps[0], contract, env).value + Concatenated(ps[1..], contract, env).value);
      var none: seq<Promise> := [];
      assert none + none == none;
    }
  }

  /** Registrations of other service types sort into providers of other service types. */
  lemma {:induction false} ClosedSortAvoidsContract(b: seq<Registration>, generation: Generation, contract: Contract)
    requires forall d :: d in b ==> d.serviceType != contract.contractType
    requires Sort(b, generation).Success?
    ensures forall p :: p in Sort(b, generation).value ==> ServiceTypeOf(p) != contract.contractType
    decreases |b|
  {
    if b != [] {
      assert b == [b[0]] + b[1..];
      ClosedSortAvoidsContract(b[1..], generation, contract);
    }
  }

  /** With the last answering provider followed only by providers of other service types, the
      ordinary request gets its promise alone. */
  lemma LastAnsweringProviderWins(ps: seq<Provider>, front: seq<Provider>, t: TypeExports.TypeProvider, back: seq<Provider>,
                                  contract: Contract, active: set<Contract>, env: Env)
    requires AllWellFormed(front) && t.serviceType == contract.contractType
    requires forall p :: p in back ==> !p.OpenGenericExport? && ServiceTypeOf(p) != contract.contractType
    requires ps == front + [TypeExport(t)] + back
    requires contract !in active
    requires Concatenated(front, contract, env).Success?
    ensures AllWellFormed(ps)
    ensures GetAggregateDescriptors(ps, contract, active, env) == Success(TypeExports.GetExportDescriptors(t, contract, env))
  {
    var single := [TypeExport(t)];
    var answer := TypeExports.GetExportDescriptors(t, contract, env);
    assert AllWellFormed(single) && Concatenated(single, contract, env) == Success(answer) by {
      assert single[1..] == [];
      assert answer + [] == answer;
    }
    var all := Concatenated(front, contract, env).value + answer;
    assert AllWellFormed(front + single) && Concatenated(front + single, contract, env) == Success(all) by {
      ConcatenatedAppend(front, single, contract, env);
    }
    assert AllWellFormed(ps) && Concatenated(ps, contract, env) == Success(all) by {
      ClosedProvidersAnswerNothingElse(back, contract, env);
      ConcatenatedAppend(front + single, back, contract, env);
      assert all + [] == all;
    }
    assert Last(all) == answer[0] && answer == [answer[0]];
  }

  /** The promise a type registration's provider gives for a contract of its service type. */
  function TypedPromiseOf(d: Registration, contract: Contract, env: Env, generation: Generation): Promise
    requires d.implementationType.Some?
  {
    TypeExports.GetTypedDescriptor(contract, contract.ChangeType(d.implementationType.value), d.lifetime, env, generation)
  }

  /** Last registration wins. For an ordinary request, the answer is the promise of the last
      registration of the contract's type: in the older generation this is plain last-wins; in
      the newer one it also means a closed registration overrides every open-generic
      registration, wherever the open ones sit in the collection. */
  lemma LastClosedRegistrationWins(a: seq<Registration>, d: Registration, b: seq<Registration>, generation: Generation,
                                   contract: Contract, active: set<Contract>, env: Env)
    requires ByTypeOnly(d) && d.serviceType == contract.contractType && !d.serviceType.IsGenericTypeDefinition()
    requires forall e :: e in b ==> e.serviceType != contract.contractType
    requires contract !in active
    requires CreateContainer(a + [d] + b, generation).Success?
    requires Concatenated(CreateContainer(a + [d] + b, generation).value, contract, env).Success?
    ensures GetAggregateDescriptors(CreateContainer(a + [d] + b, generation).value, contract, active, env)
            == Success([TypedPromiseOf(d, contract, env, generation)])
  {
    var ps := CreateContainer(a + [d] + b, generation).value;
    var front := ContainerFront(a, d, b, generation);
    var t := TypeExports.NewTypeProvider(d, generation).value;
    ClosedSortAvoidsContract(b, generation, contract);
    LastAnsweringProviderWins(ps, front, t, Sort(b, generation).value, contract, active, env);
  }

  /** In the newer generation a closed registration of a constructed generic contract overrides
      every open-generic registration of its definition, wherever those sit: they all land in the
      bucket whose provider comes first, so although that provider does answer the contract, the
      last answer is the closed one. */
  lemma ClosedRegistrationOverridesOpenGeneric(a: seq<Registration>, d: Registration, b: seq<Registration>,
                                               contract: Contract, active: set<Contract>, env: Env)
    requires ByTypeOnly(d) && d.serviceType == contract.contractType && contract.contractType.IsConstructedGenericType()
    requires exists o :: (o in a || o in b) && IsOpenRegistration(o, MefExtensions) && OpenGenericExports.Matches(o, contract)
    requires forall e :: e in b ==> e.serviceType != contract.contractType
    requires contract !in active
    requires CreateContainer(a + [d] + b, MefExtensions).Success?
    requires Concatenated(CreateContainer(a + [d] + b, MefExtensions).value, contract, env).Success?
    ensures var ps := CreateContainer(a + [d] + b, MefExtensions).value;
            && ps[0].OpenGenericExport?
            && |GetExportDescriptors(ps[0], contract, env).value| >= 1
    ensures GetAggregateDescriptors(CreateContainer(a + [d] + b, MefExtensions).value, contract, active, env)
            == Success([TypedPromiseOf(d, contract, env, MefExtensions)])
  {
    var regs := a + [d] + b;
    var ps := CreateContainer(regs, MefExtensions).value;
    var o :| (o in a || o in b) && IsOpenRegistration(o, MefExtensions) && OpenGenericExports.Matches(o, contract);
    assert o in regs;
    assert GetExportDescriptors(ps[0], contract, env).Success? by {
      assert ps[0] in ps;
    }
    OpenBucketAnswers(regs, o, contract, env);
    LastClosedRegistrationWins(a, d, b, MefExtensions, contract, active, env);
  }

  /** The open-generic provider answers a contract that one of the bucketed registrations matches. */
  lemma OpenBucketAnswers(regs: seq<Registration>, o: Registration, contract: Contract, env: Env)
    requires o in regs && IsOpenRegistration(o, MefExtensions) && OpenGenericExports.Matches(o, contract)
    requires CreateContainer(regs, MefExtensions).Success?
    requires GetExportDescriptors(CreateContainer(regs, MefExtensions).value[0], contract, env).Success?
    ensures var p := CreateContainer(regs, MefExtensions).value[0];
            p.OpenGenericExport? && |GetExportDescriptors(p, contract, env).value| >= 1
  {
    var p := CreateContainer(regs, MefExtensions).value[0];
    var open := OpenGenericExports.OpenGenericProvider(OpenRegistrations(regs, MefExtensions));
    assert p == OpenGenericExport(open);
    assert o in open.descriptors && OpenGenericExports.AllImplemented(open.descriptors);
    assert OpenGenericExports.GetExportDescriptors(open, contract, env) == GetExportDescriptors(p, contract, env);
    OpenGenericExports.MatchingRegistrationAnswers(open, o, contract, env);
  }

  /** The older generation has no bucket: a registration whose implementation is a generic
      definition reaches the type provider, which rejects it, and the build fails. */
  lemma OkraRejectsOpenImplementation(regs: seq<Registration>, d: Registration)
    requires d in regs && ByTypeOnly(d) && d.implementationType.value.IsGenericTypeDefinition()
    ensures Classify(d, Okra) == Failure(TypeCannotBeActivated(d.implementationType.value, d.serviceType))
    ensures CreateContainer(regs, Okra).Failure?
  {
  }

  /** Sorting `a + [d] + b` puts the type provider of `d` between the closed providers of `a`
      and those of `b`. */
  lemma SortAroundTypeRegistration(a: seq<Registration>, d: Registration, b: seq<Registration>, generation: Generation)
    requires ByTypeOnly(d) && !d.serviceType.IsGenericTypeDefinition()
    requires Sort(a + [d] + b, generation).Success?
    ensures Sort(a, generation).Success? && Sort(b, generation).Success?
    ensures TypeExports.NewTypeProvider(d, generation).Success?
    ensures Sort(a + [d] + b, generation).value
            == Sort(a, generation).value + [TypeExport(TypeExports.NewTypeProvider(d, generation).value)] + Sort(b, generation).value
  {
    SortDistributes(a + [d], b, generation);
    SortDistributes(a, [d], generation);
    assert Sort([d], generation).value == [TypeExport(TypeExports.NewTypeProvider(d, generation).value)];
  }

  /** The providers in front of `d`'s type provider in the container built from `a + [d] + b`. */
  function ContainerFront(a: seq<Registration>, d: Registration, b: seq<Registration>, generation: Generation): (front: seq<Provider>)
    requires ByTypeOnly(d) && !d.serviceType.IsGenericTypeDefinition()
    requires CreateContainer(a + [d] + b, generation).Success?
    ensures AllWellFormed(front)
    ensures TypeExports.NewTypeProvider(d, generation).Success? && Sort(b, generation).Success?
    ensures CreateContainer(a + [d] + b, generation).value
            == front + [TypeExport(TypeExports.NewTypeProvider(d, generation).value)] + Sort(b, generation).value
  {
    ContainerSplitsAroundType(a, d, b, generation);
    if generation == Okra then Sort(a, generation).value
    else [CreateContainer(a + [d] + b, generation).value[0]] + Sort(a, generation).value
  }

  /** The container built from `a + [d] + b` is, in order: the open-generic provider in the newer
      generation, the closed providers of `a`, the type provider of `d`, the closed providers of `b`. */
  lemma ContainerSplitsAroundType(a: seq<Registration>, d: Registration, b: seq<Registration>, generation: Generation)
    requires ByTypeOnly(d) && !d.serviceType.IsGenericTypeDefinition()
    requires CreateContainer(a + [d] + b, generation).Success?
    ensures Sort(a, generation).Success? && Sort(b, generation).Success?
    ensures TypeExports.NewTypeProvider(d, generation).Success?
    ensures var ps := CreateContainer(a + [d] + b, generation).value;
            var front := if generation == Okra then Sort(a, generation).value else [ps[0]] + Sort(a, generation).value;
            && AllWellFormed(front)
            && ps == front + [TypeExport(TypeExports.NewTypeProvider(d, generation).value)] + Sort(b, generation).value
  {
    var ps := CreateContainer(a + [d] + b, generation).value;
    SortAroundTypeRegistration(a, d, b, generation);
    var closedA := Sort(a, generation).value;
    var t := [TypeExport(TypeExports.NewTypeProvider(d, generation).value)];
    var sb := Sort(b, generation).value;
    assert Sort(a + [d] + b, generation).value == closedA + t + sb;
    assert AllWellFormed(closedA) by {
      assert forall p :: p in closedA ==> p in Sort(a + [d] + b, generation).value;
    }
    if generation == MefExtensions {
      var head := [ps[0]];
      assert ps == head + (closedA + t + sb) by {
        SeqCons(ps);
      }
      calc {
        head + closedA + t + sb;
        { SeqAssoc(head, closedA, t); }
        head + (closedA + t) + sb;
        { SeqAssoc(head, closedA + t, sb); }
        head + (closedA + t + sb);
      }
      assert AllWellFormed(head + closedA) by {
        assert ps[0] in ps;
      }
    }
  }

  /** The state `BuildServiceProvider` leaves behind: the aggregate's providers, the scope tree,
      and the scope whose service provider is handed out. */
  datatype ServiceProviderState = ServiceProviderState(providers: seq<Provider>, world: World, scope: ScopeId)

  /** `BuildServiceProvider`: build the container, then hand out the service provider of a fresh
      scope created under the root by the scope factory. That scope carries the sharing boundary,
      so scoped services resolved through the returned provider live in it, not in the root. */
  function BuildServiceProvider(regs: seq<Registration>, generation: Generation): (r: Outcome<ServiceProviderState>)
    ensures r.Success? <==> CreateContainer(regs, generation).Success?
    ensures r.Success? ==>
              && r.value.providers == CreateContainer(regs, generation).value
              && Valid(r.value.world)
              && r.value.scope in r.value.world.scopes && r.value.scope != [] && Parent(r.value.scope) == []
              && r.value.world.scopes[r.value.scope].boundary == Some(ScopeBoundary)
              && r.value.world.scopes[r.value.scope].cache == map[]
  {
    var providers :- CreateContainer(regs, generation);
    var (world, scope) := CreateScope(InitialWorld(), [], Some(ScopeBoundary));
    Success(ServiceProviderState(providers, world, scope))
  }

  /** Through the returned provider, a scoped service is shared in the handed-out scope and a
      singleton in the root. */
  lemma ReturnedScopeIsTheScopedTarget(regs: seq<Registration>, generation: Generation)
    requires BuildServiceProvider(regs, generation).Success?
    ensures var st := BuildServiceProvider(regs, generation).value;
            && FindContextWithin(st.world, st.scope, Some(ScopeBoundary)) == Success(st.scope)
            && FindContextWithin(st.world, st.scope, None) == Success([])
  {
  }
}

=== FILE: lifetimes.dfy ===
/** Activators, the composition scope tree and service-lifetime wrapping
    (`CompositeActivatorExtensions.ApplyServiceLifetime`).

    A scope is named by its path from the root: the root is `[]` and a child of `p` is
    `p + [k]`. Each scope may carry a sharing boundary, keeps a cache from sharing ids to the
    instances created for them, and the list of disposable instances bound to it. */
module Lifetimes {
  import opened Results
  import opened Types

  /** The boundary every service scope is tagged with (`MefServiceProvider.SHARING_BOUNDARY`). */
  const ScopeBoundary: string := "Scope"

  type ScopeId = seq<nat>

  datatype ScopeNode = ScopeNode(boundary: Option<string>, cache: map<nat, Instance>, bound: seq<Instance>)

  /** All scopes, the identity the next created object gets, and the next free child index. */
  datatype World = World(scopes: map<ScopeId, ScopeNode>, nextObject: nat, nextScope: nat)

  function Parent(s: ScopeId): ScopeId
    requires |s| > 0
  {
    s[..|s| - 1]
  }

  /** Every step of the path is a child index below `n`. */
  ghost predicate IndicesBelow(s: ScopeId, n: nat) {
    forall i :: 0 <= i < |s| ==> s[i] < n
  }

  /** The scopes form a tree rooted at `[]`, and every child index in use is below `nextScope`. */
  ghost predicate Valid(w: World) {
    && [] in w.scopes
    && (forall s :: s in w.scopes && |s| > 0 ==> Parent(s) in w.scopes)
    && (forall s :: s in w.scopes ==> IndicesBelow(s, w.nextScope))
  }

  /** The container before any scope is opened: the root scope alone, with no boundary. */
  function InitialWorld(): (w: World)
    ensures Valid(w)
    ensures w.scopes.Keys == {[]}
  {
    World(map[[] := ScopeNode(None, map[], [])], 0, 0)
  }

  /** Opens a child scope under `parent` carrying `boundary`, with an empty cache. */
  function CreateScope(w: World, parent: ScopeId, boundary: Option<string>): (r: (World, ScopeId))
    requires Valid(w) && parent in w.scopes
    ensures Valid(r.0)
    ensures r.1 !in w.scopes && |r.1| > 0 && Parent(r.1) == parent
    ensures r.0.scopes == w.scopes[r.1 := ScopeNode(boundary, map[], [])]
    ensures r.0.nextObject == w.nextObject
  {
    var child := parent + [w.nextScope];
    assert child[|parent|] == w.nextScope;
    assert Parent(child) == parent;
    assert IndicesBelow(parent, w.nextScope);
    assert forall s :: s in w.scopes ==> IndicesBelow(s, w.nextScope + 1);
    (World(w.scopes[child := ScopeNode(boundary, map[], [])], w.nextObject, w.nextScope + 1), child)
  }

  /** The nearest scope, starting at `s` and walking towards the root, that carries boundary `b`. */
  function Nearest(w: World, s: ScopeId, b: string): (r: Option<ScopeId>)
    requires Valid(w) && s in w.scopes
    ensures r.Some? ==> r.value in w.scopes && r.value <= s && w.scopes[r.value].boundary == Some(b)
    ensures r.Some? ==> forall u :: u in w.scopes && r.value < u && u <= s ==> w.scopes[u].boundary != Some(b)
    ensures r.None? ==> forall u :: u in w.scopes && u <= s ==> w.scopes[u].boundary != Some(b)
    decreases |s|
  {
    if w.scopes[s].boundary == Some(b) then Some(s)
    else if |s| == 0 then None
    else
      var r := Nearest(w, Parent(s), b);
      assert forall u :: u in w.scopes && u <= s && u != s ==> u <= Parent(s) by {
        forall u | u in w.scopes && u <= s && u != s ensures u <= Parent(s) {
          ProperPrefixOfParent(u, s);
        }
      }
      r
  }

  lemma ProperPrefixOfParent(u: ScopeId, s: ScopeId)
    requires u <= s && u != s
    ensures |s| > 0 && u <= Parent(s)
  {
    assert |u| < |s|;
    assert u == s[..|u|];
    assert Parent(s)[..|u|] == s[..|u|];
  }

  /** `LifetimeContext.FindContextWithin`: no boundary means the root; otherwise the nearest
      enclosing scope carrying the boundary, and a failure when there is none. */
  function FindContextWithin(w: World, s: ScopeId, boundary: Option<string>): (r: Outcome<ScopeId>)
    requires Valid(w) && s in w.scopes
    ensures r.Success? ==> r.value in w.scopes && r.value <= s
    ensures boundary.None? ==> r == Success([])
    ensures boundary.Some? && r.Success? ==> w.scopes[r.value].boundary == boundary
    ensures boundary.Some? && r.Failure? ==>
              forall u :: u in w.scopes && u <= s ==> w.scopes[u].boundary != boundary
  {
    match boundary
    case None => Success([])
    case Some(b) =>
      match Nearest(w, s, b)
      case Some(t) => Success(t)
      case None => Failure(ScopeNotFound(b))
  }

  /** An activator: what running an export does, built bottom-up from its dependencies. */
  datatype Activator =
      /** Throws the captured error when run (deferred failure). */
    | Throwing(error: Error)
      /** Runs the parameter activators in order and invokes the constructor on their results. */
    | Construct(implementation: Ty, ctor: Ctor, parameters: seq<Activator>)
      /** Get-or-create under one sharing id in the scope the boundary selects. */
    | Shared(sharingId: nat, boundary: Option<string>, inner: Activator)
      /** Runs every item activator in order and returns the array of results. */
    | Collect(items: seq<Activator>)
      /** Returns a pre-built instance. */
    | Supply(instance: Instance)
      /** Calls a registered factory, which returns a new object of the given type. */
    | Produce(ty: Ty)

  /** What `ConstructorInfo.Invoke` does: either the new object, or the constructor's own exception
      wrapped in a TargetInvocationException. */
  datatype Invocation = Returned(instance: Instance) | TargetInvocation(inner: Error)

  function Invoke(impl: Ty, ctor: Ctor, args: seq<Instance>, id: nat): (r: Invocation)
    ensures ctor.fault.None? <==> r.Returned?
    ensures r.Returned? ==> r.instance == Obj(id, impl, args)
  {
    match ctor.fault
    case Some(reason) => TargetInvocation(ConstructorFailed(impl, reason))
    case None => Returned(Obj(id, impl, args))
  }

  function Store(w: World, t: ScopeId, id: nat, x: Instance): World
    requires t in w.scopes
  {
    w.(scopes := w.scopes[t := w.scopes[t].(cache := w.scopes[t].cache[id := x])])
  }

  /** `AddBoundInstance`: the scope will dispose the instance when it is released. */
  function Bind(w: World, t: ScopeId, x: Instance): World
    requires t in w.scopes
  {
    w.(scopes := w.scopes[t := w.scopes[t].(bound := w.scopes[t].bound + [x])])
  }

  /** `w'` is a later state of `w` reached by running something in scope `s`: the tree and its
      boundaries are unchanged, object identities only grow, and only `s` and its ancestors
      have had their caches or bound instances touched. */
  ghost predicate Evolves(w: World, w': World, s: ScopeId) {
    && Valid(w')
    && w'.scopes.Keys == w.scopes.Keys
    && w'.nextScope == w.nextScope
    && w.nextObject <= w'.nextObject
    && (forall t :: t in w.scopes ==> w'.scopes[t].boundary == w.scopes[t].boundary)
    && (forall t :: t in w.scopes && !(t <= s) ==> w'.scopes[t] == w.scopes[t])
  }

  lemma EvolvesTransitive(w0: World, w1: World, w2: World, s: ScopeId, t: ScopeId)
    requires Evolves(w0, w1, s) && Evolves(w1, w2, t) && t <= s
    ensures Evolves(w0, w2, s)
  {
  }

  /** Runs an activator in scope `scope` (`activator(context, operation)`). */
  function Run(a: Activator, w: World, scope: ScopeId): (res: (Outcome<Instance>, World))
    requires Valid(w) && scope in w.scopes
    ensures Evolves(w, res.1, scope)
    ensures a.Construct? && res.0.Success? ==>
              res.0.value.Obj? && w.nextObject <= res.0.value.id < res.1.nextObject
    decreases a, 1
  {
    match a
    case Throwing(e) => (Failure(e), w)
    case Supply(x) => (Success(x), w)
    case Produce(ty) =>
      (Success(Obj(w.nextObject, ty, [])), w.(nextObject := w.nextObject + 1))
    case Construct(impl, ctor, ps) =>
      var (args, w1) := RunAll(ps, w, scope);
      Construction(impl, ctor, args, w1, scope)
    case Shared(id, boundary, inner) =>
      var found := FindContextWithin(w, scope, boundary);
      if found.Failure? then (Failure(found.error), w)
      else
        // Whether the target is the current scope or an ancestor, get-or-create runs with the
        // target as the context, so the instance and its dependencies belong to it.
        var (r, w1) := GetOrCreate(found.value, id, inner, w);
        EvolvesTransitive(w, w, w1, scope, found.value);
        (r, w1)
    case Collect(items) =>
      var (r, w1) := RunAll(items, w, scope);
      if r.Failure? then (Failure(r.error), w1) else (Success(Arr(r.value)), w1)
  }

  /** `LifetimeContext.GetOrCreate`: the instance cached in scope `t` under sharing id `id`, or
      else the result of running `inner` in `t`, which is then cached there. A failure caches
      nothing. */
  function GetOrCreate(t: ScopeId, id: nat, inner: Activator, w: World): (res: (Outcome<Instance>, World))
    requires Valid(w) && t in w.scopes
    ensures Evolves(w, res.1, t)
    ensures id in w.scopes[t].cache ==> res == (Success(w.scopes[t].cache[id]), w)
    ensures res.0.Success? ==> id in res.1.scopes[t].cache && res.1.scopes[t].cache[id] == res.0.value
    ensures id !in w.scopes[t].cache && inner.Construct? && res.0.Success? ==>
              res.0.value.Obj? && w.nextObject <= res.0.value.id < res.1.nextObject
    decreases inner, 2
  {
    if id in w.scopes[t].cache then (Success(w.scopes[t].cache[id]), w)
    else
      var (r, w1) := Run(inner, w, t);
      if r.Failure? then (r, w1) else (r, Store(w1, t, id, r.value))
  }

  /** The last step of running `Construct`: once the parameter activators have produced `args`
      in state `w`, invoke the constructor; a failing constructor surfaces its own exception, and
      a disposable result is bound to the scope the activator runs in. */
  function Construction(impl: Ty, ctor: Ctor, args: Outcome<seq<Instance>>, w: World, scope: ScopeId)
    : (res: (Outcome<Instance>, World))
    requires Valid(w) && scope in w.scopes
    ensures Evolves(w, res.1, scope)
    ensures res.0.Success? ==> args.Success? && res.0.value == Obj(w.nextObject, impl, args.value) && res.1.nextObject == w.nextObject + 1
    ensures res.0.Success? <==> args.Success? && ctor.fault.None?
    ensures args.Success? && ctor.fault.Some? ==> res.0 == Failure(ConstructorFailed(impl, ctor.fault.value))
    ensures args.Failure? ==> res.0 == Failure(args.error)
    ensures res.0.Success? && impl.isDisposable ==> res.1.scopes[scope].bound == w.scopes[scope].bound + [res.0.value]
    ensures !(res.0.Success? && impl.isDisposable) ==> res.1.scopes[scope].bound == w.scopes[scope].bound
  {
    if args.Failure? then (Failure(args.error), w)
    else
      var invocation := Invoke(impl, ctor, args.value, w.nextObject);
      // the invocation wrapper is dropped and the constructor's own exception rethrown
      if invocation.TargetInvocation? then (Failure(invocation.inner), w)
      else
        var x := invocation.instance;
        var w2 := w.(nextObject := w.nextObject + 1);
        (Success(x), if impl.isDisposable then Bind(w2, scope, x) else w2)
  }

  /** Runs activators left to right, stopping at the first failure. */
  function RunAll(acts: seq<Activator>, w: World, scope: ScopeId): (res: (Outcome<seq<Instance>>, World))
    requires Valid(w) && scope in w.scopes
    ensures Evolves(w, res.1, scope)
    ensures res.0.Success? ==> |res.0.value| == |acts|
    ensures res.0.Success? && |acts| > 0 ==> Run(acts[0], w, scope).0 == Success(res.0.value[0])
    decreases acts, 0
  {
    if acts == [] then (Success([]), w)
    else
      var (first, w1) := Run(acts[0], w, scope);
      if first.Failure? then (Failure(first.error), w1)
      else
        var (rest, w2) := RunAll(acts[1..], w1, scope);
        EvolvesTransitive(w, w1, w2, scope, scope);
        if rest.Failure? then (Failure(rest.error), w2) else (Success([first.value] + rest.value), w2)
  }

  /** Running `a + b` runs `a`, then `b` in the world `a` left behind: a failure in `a` is the
      failure of the whole run and nothing of `b` runs; otherwise the results are those of `a`
      followed by those of `b`. */
  lemma {:induction false} RunAllAppend(a: seq<Activator>, b: seq<Activator>, w: World, scope: ScopeId)
    requires Valid(w) && scope in w.scopes
    ensures RunAll(a, w, scope).0.Failure? ==> RunAll(a + b, w, scope) == RunAll(a, w, scope)
    ensures RunAll(a, w, scope).0.Success? ==>
              && RunAll(a + b, w, scope).1 == RunAll(b, RunAll(a, w, scope).1, scope).1
              && (RunAll(b, RunAll(a, w, scope).1, scope).0.Failure? ==>
                    RunAll(a + b, w, scope).0 == RunAll(b, RunAll(a, w, scope).1, scope).0)
              && (RunAll(b, RunAll(a, w, scope).1, scope).0.Success? ==>
                    RunAll(a + b, w, scope).0
                    == Success(RunAll(a, w, scope).0.value + RunAll(b, RunAll(a, w, scope).1, scope).0.value))
    decreases |a|
  {
    if a == [] {
      assert a + b == b;
      var rb := RunAll(b, w, scope).0;
      if rb.Success? {
        assert [] + rb.value == rb.value;
      }
    } else {
      assert (a + b)[0] == a[0];
      assert (a + b)[1..] == a[1..] + b;
      var (first, w1) := Run(a[0], w, scope);
      RunAllHead(a, w, scope);
      RunAllHead(a + b, w, scope);
      if first.Failure? {
        assert RunAll(a, w, scope) == (Failure(first.error), w1);
        assert RunAll(a + b, w, scope) == (Failure(first.error), w1);
      } else {
        RunAllAppend(a[1..], b, w1, scope);
        var (rt, wt) := RunAll(a[1..], w1, scope);
        if rt.Failure? {
          assert RunAll(a, w, scope) == (Failure(rt.error), wt);
          assert RunAll(a[1..] + b, w1, scope) == (rt, wt);
          assert RunAll(a + b, w, scope) == (Failure(rt.error), wt);
        } else {
          assert RunAll(a, w, scope) == (Success([first.value] + rt.value), wt);
          var (rb, wb) := RunAll(b, wt, scope);
          if rb.Success? {
            SeqAssoc([first.value], rt.value, rb.value);
            assert RunAll(a + b, w, scope) == (Success([first.value] + (rt.value + rb.value)), wb);
          } else {
            assert RunAll(a + b, w, scope) == (Failure(rb.error), wb);
          }
        }
      }
    }
  }

  /** One step of `RunAll`: the head runs first, and the rest runs in the world it left. */
  lemma RunAllHead(acts: seq<Activator>, w: World, scope: ScopeId)
    requires Valid(w) && scope in w.scopes && acts != []
    ensures var (first, w1) := Run(acts[0], w, scope);
            && (first.Failure? ==> RunAll(acts, w, scope) == (Failure(first.error), w1))
            && (first.Success? ==>
                  var (rest, w2) := RunAll(acts[1..], w1, scope);
                  RunAll(acts, w, scope) == (if rest.Failure? then Failure(rest.error) else Success([first.value] + rest.value), w2))
  {
  }

  /** The world the activators before position `i` leave behind, in which activator `i` runs. */
  function WorldBefore(acts: seq<Activator>, i: nat, w: World, scope: ScopeId): (w': World)
    requires Valid(w) && scope in w.scopes && i <= |acts|
    ensures Valid(w') && scope in w'.scopes
  {
    RunAll(acts[..i], w, scope).1
  }

  /** Activators run left to right, each in the world its predecessors left behind: the i-th
      result of a successful run is what the i-th activator returns there. */
  lemma RunAllInOrder(acts: seq<Activator>, w: World, scope: ScopeId)
    requires Valid(w) && scope in w.scopes
    ensures var r := RunAll(acts, w, scope).0;
            r.Success? ==>
              forall i :: 0 <= i < |acts| ==>
                && RunAll(acts[..i], w, scope).0.Success?
                && Run(acts[i], WorldBefore(acts, i, w, scope), scope).0 == Success(r.value[i])
  {
    var r := RunAll(acts, w, scope).0;
    if r.Success? {
      forall i | 0 <= i < |acts|
        ensures RunAll(acts[..i], w, scope).0.Success?
        ensures Run(acts[i], WorldBefore(acts, i, w, scope), scope).0 == Success(r.value[i])
      {
        RunAllNth(acts, i, w, scope);
      }
    }
  }

  lemma RunAllNth(acts: seq<Activator>, i: nat, w: World, scope: ScopeId)
    requires Valid(w) && scope in w.scopes && i < |acts|
    requires RunAll(acts, w, scope).0.Success?
    ensures RunAll(acts[..i], w, scope).0.Success?
    ensures Run(acts[i], WorldBefore(acts, i, w, scope), scope).0 == Success(RunAll(acts, w, scope).0.value[i])
  {
    RunAllSplit(acts, i, w, scope);
    var wi := WorldBefore(acts, i, w, scope);
    var pre, post := RunAll(acts[..i], w, scope).0, RunAll(acts[i..], wi, scope).0;
    assert acts[i..][0] == acts[i];
    assert Run(acts[i], wi, scope).0 == Success(post.value[0]);
    assert (pre.value + post.value)[i] == post.value[0];
  }

  /** A successful run splits at any position into the run of the activators before it and the
      run of the rest, in the world the first part left behind. */
  lemma RunAllSplit(acts: seq<Activator>, i: nat, w: World, scope: ScopeId)
    requires Valid(w) && scope in w.scopes && i <= |acts|
    requires RunAll(acts, w, scope).0.Success?
    ensures RunAll(acts[..i], w, scope).0.Success?
    ensures RunAll(acts[i..], WorldBefore(acts, i, w, scope), scope).0.Success?
    ensures |RunAll(acts[..i], w, scope).0.value| == i
    ensures RunAll(acts, w, scope).0.value
            == RunAll(acts[..i], w, scope).0.value + RunAll(acts[i..], WorldBefore(acts, i, w, scope), scope).0.value
  {
    SeqSplit(acts, i);
    RunAllAppend(acts[..i], acts[i..], w, scope);
  }

  /** A failed run reports the failure of the first activator that failed: every activator
      before it succeeded, and the run ends in the world that activator left behind, so none
      after it has run. */
  lemma {:induction false} RunAllStopsAtFirstFailure(acts: seq<Activator>, w: World, scope: ScopeId)
    requires Valid(w) && scope in w.scopes
    ensures var (r, w') := RunAll(acts, w, scope);
            r.Failure? ==> exists k :: FailsFirstAt(acts, k, w, scope, Failure(r.error), w')
    decreases |acts|
  {
    var (r, w') := RunAll(acts, w, scope);
    if r.Failure? {
      var (first, w1) := Run(acts[0], w, scope);
      RunAllHead(acts, w, scope);
      if first.Failure? {
        assert acts[..0] == [];
        assert FailsFirstAt(acts, 0, w, scope, Failure(r.error), w');
      } else {
        var tail := acts[1..];
        RunAllStopsAtFirstFailure(tail, w1, scope);
        var k :| FailsFirstAt(tail, k, w1, scope, Failure(r.error), w');
        assert acts[k + 1] == tail[k];
        FailsFirstShift(acts, k, w, w1, scope, Failure(r.error), w');
      }
    }
  }

  /** A first failure in the tail, after a successful head, is a first failure one place later. */
  lemma FailsFirstShift(acts: seq<Activator>, k: int, w: World, w1: World, scope: ScopeId, e: Outcome<Instance>, w': World)
    requires Valid(w) && scope in w.scopes && acts != []
    requires Valid(w1) && scope in w1.scopes
    requires Run(acts[0], w, scope).0.Success? && Run(acts[0], w, scope).1 == w1
    requires 0 <= k < |acts| - 1
    requires RunAll(acts[1..][..k], w1, scope).0.Success?
    requires Run(acts[k + 1], RunAll(acts[1..][..k], w1, scope).1, scope) == (e, w')
    ensures FailsFirstAt(acts, k + 1, w, scope, e, w')
  {
    PrefixAfterHead(acts, k, w, w1, scope);
  }

  /** After a successful head, the first `k + 1` activators leave the world the `k` after the head
      leave, starting from the world the head left. */
  lemma PrefixAfterHead(acts: seq<Activator>, k: int, w: World, w1: World, scope: ScopeId)
    requires Valid(w) && scope in w.scopes && acts != []
    requires Valid(w1) && scope in w1.scopes
    requires Run(acts[0], w, scope).0.Success? && Run(acts[0], w, scope).1 == w1
    requires 0 <= k < |acts| - 1
    requires RunAll(acts[1..][..k], w1, scope).0.Success?
    ensures RunAll(acts[..k + 1], w, scope).0.Success?
    ensures WorldBefore(acts, k + 1, w, scope) == RunAll(acts[1..][..k], w1, scope).1
  {
    SeqPrefixOfTail(acts, k);
    RunAllHead(acts[..k + 1], w, scope);
  }

  /** Activator `k` is the first to fail: those before it succeed, and it fails with `e`, leaving `w'`. */
  ghost predicate FailsFirstAt(acts: seq<Activator>, k: int, w: World, scope: ScopeId, e: Outcome<Instance>, w': World)
    requires Valid(w) && scope in w.scopes
  {
    && 0 <= k < |acts|
    && RunAll(acts[..k], w, scope).0.Success?
    && Run(acts[k], WorldBefore(acts, k, w, scope), scope) == (e, w')
  }

  /** A sequence activator runs its items in order and wraps their results in an array. */
  lemma RunCollect(items: seq<Activator>, w: World, scope: ScopeId)
    requires Valid(w) && scope in w.scopes
    ensures RunAll(items, w, scope).0.Success? ==>
              Run(Collect(items), w, scope) == (Success(Arr(RunAll(items, w, scope).0.value)), RunAll(items, w, scope).1)
    ensures RunAll(items, w, scope).0.Failure? ==>
              Run(Collect(items), w, scope) == (Failure(RunAll(items, w, scope).0.error), RunAll(items, w, scope).1)
  {
    var run := RunAll(items, w, scope);
    assert Run(Collect(items), w, scope)
           == if run.0.Failure? then (Failure(run.0.error), run.1) else (Success(Arr(run.0.value)), run.1);
  }

  lemma RunConstructUnfolds(impl: Ty, ctor: Ctor, ps: seq<Activator>, w: World, s: ScopeId)
    requires Valid(w) && s in w.scopes
    ensures Run(Construct(impl, ctor, ps), w, s)
            == Construction(impl, ctor, RunAll(ps, w, s).0, RunAll(ps, w, s).1, s)
  {
  }

  lemma RunSharedUnfolds(id: nat, b: Option<string>, inner: Activator, w: World, s: ScopeId)
    requires Valid(w) && s in w.scopes && FindContextWithin(w, s, b).Success?
    ensures Run(Shared(id, b, inner), w, s) == GetOrCreate(FindContextWithin(w, s, b).value, id, inner, w)
  {
  }

  /** `ApplyServiceLifetime`: a transient activator is returned unchanged and consumes no sharing
      id; any other lifetime consumes exactly one id, at wrapping time, which every run of the
      wrapped activator then uses. Scoped instances live in the nearest "Scope" boundary, all
      others in the root. */
  function ApplyServiceLifetime(a: Activator, lifetime: Lifetime, nextSharingId: nat): (r: (Activator, nat))
    ensures lifetime == Transient ==> r.0 == a && r.1 == nextSharingId
    ensures lifetime != Transient ==>
              && r.1 == nextSharingId + 1
              && r.0.Shared? && r.0.sharingId == nextSharingId && r.0.inner == a
    ensures lifetime == Scoped ==> r.0.Shared? && r.0.boundary == Some(ScopeBoundary)
    ensures lifetime == Singleton ==> r.0.Shared? && r.0.boundary.None?
  {
    if lifetime == Transient then (a, nextSharingId)
    else
      var boundary := if lifetime == Scoped then Some(ScopeBoundary) else None;
      (Shared(nextSharingId, boundary, a), nextSharingId + 1)
  }

  /** Only the boundaries matter to `Nearest`, so it agrees on any state that keeps them. */
  lemma {:induction false} NearestKeepsAnswer(w: World, w': World, s: ScopeId, b: string)
    requires Valid(w) && Valid(w') && s in w.scopes
    requires w'.scopes.Keys == w.scopes.Keys
    requires forall t :: t in w.scopes ==> w'.scopes[t].boundary == w.scopes[t].boundary
    ensures Nearest(w', s, b) == Nearest(w, s, b)
    decreases |s|
  {
    if w.scopes[s].boundary != Some(b) && |s| > 0 {
      NearestKeepsAnswer(w, w', Parent(s), b);
    }
  }

  /** A successful shared run leaves its instance cached under the sharing id in the target
      scope, so any later run of that id reaching the same target returns that instance without
      running anything, whatever activator it wraps. */
  lemma SharedInstanceIsReused(id: nat, b: Option<string>, inner: Activator, inner': Activator,
                               w: World, s: ScopeId, s': ScopeId)
    requires Valid(w) && s in w.scopes && s' in w.scopes
    requires Run(Shared(id, b, inner), w, s).0.Success?
    requires FindContextWithin(w, s', b) == FindContextWithin(w, s, b)
    ensures var (r, w1) := Run(Shared(id, b, inner), w, s);
            Run(Shared(id, b, inner'), w1, s') == (r, w1)
  {
    var target := FindContextWithin(w, s, b).value;
    RunSharedUnfolds(id, b, inner, w, s);
    var (r, w1) := GetOrCreate(target, id, inner, w);
    NearestOrRootStable(w, w1, s', b);
    RunSharedUnfolds(id, b, inner', w1, s');
  }

  lemma NearestOrRootStable(w: World, w': World, s: ScopeId, b: Option<string>)
    requires Valid(w) && Valid(w') && s in w.scopes
    requires w'.scopes.Keys == w.scopes.Keys
    requires forall t :: t in w.scopes ==> w'.scopes[t].boundary == w.scopes[t].boundary
    ensures FindContextWithin(w', s, b) == FindContextWithin(w, s, b)
  {
    if b.Some? {
      NearestKeepsAnswer(w, w', s, b.value);
    }
  }

  /** Singleton instances live in the root, so every scope gets the same one. */
  lemma SingletonIsSharedByAllScopes(id: nat, inner: Activator, w: World, s: ScopeId, s': ScopeId)
    requires Valid(w) && s in w.scopes && s' in w.scopes
    requires Run(Shared(id, None, inner), w, s).0.Success?
    ensures var (r, w1) := Run(Shared(id, None, inner), w, s);
            Run(Shared(id, None, inner), w1, s') == (r, w1)
  {
    SharedInstanceIsReused(id, None, inner, inner, w, s, s');
  }

  /** Every successful constructor run yields an object no earlier run produced, so two
      transient activations never return the same instance. */
  lemma TransientInstancesAreDistinct(impl: Ty, ctor: Ctor, ps: seq<Activator>, w: World, s: ScopeId, s': ScopeId)
    requires Valid(w) && s in w.scopes && s' in w.scopes
    ensures var (r1, w1) := Run(Construct(impl, ctor, ps), w, s);
            var (r2, w2) := Run(Construct(impl, ctor, ps), w1, s');
            r1.Success? && r2.Success? ==> r1.value != r2.value
  {
  }

  /** Two sibling service scopes keep separate caches: a scoped activation that neither has
      cached yet yields different instances in each. */
  lemma ScopedSiblingsGetDistinctInstances(id: nat, impl: Ty, ctor: Ctor, ps: seq<Activator>,
                                           w: World, s1: ScopeId, s2: ScopeId)
    requires Valid(w) && s1 in w.scopes && s2 in w.scopes
    requires |s1| > 0 && |s2| > 0 && Parent(s1) == Parent(s2) && s1 != s2
    requires w.scopes[s1].boundary == Some(ScopeBoundary) && w.scopes[s2].boundary == Some(ScopeBoundary)
    requires id !in w.scopes[s1].cache && id !in w.scopes[s2].cache
    ensures var a := Shared(id, Some(ScopeBoundary), Construct(impl, ctor, ps));
            var (r1, w1) := Run(a, w, s1);
            var (r2, w2) := Run(a, w1, s2);
            r1.Success? && r2.Success? ==> r1.value != r2.value
  {
    var inner := Construct(impl, ctor, ps);
    assert !(s2 <= s1) by {
      assert |s1| == |s2|;
    }
    assert FindContextWithin(w, s1, Some(ScopeBoundary)) == Success(s1);
    RunSharedUnfolds(id, Some(ScopeBoundary), inner, w, s1);
    var w1 := GetOrCreate(s1, id, inner, w).1;
    assert w1.scopes[s2] == w.scopes[s2];
    assert FindContextWithin(w1, s2, Some(ScopeBoundary)) == Success(s2);
    RunSharedUnfolds(id, Some(ScopeBoundary), inner, w1, s2);
  }

  /** A shared disposable created on a cache miss is owned by the target scope (the root for a
      singleton), not by the scope that asked for it. */
  lemma SharedDisposableBelongsToTarget(id: nat, b: Option<string>, impl: Ty, ctor: Ctor, ps: seq<Activator>,
                                        w: World, s: ScopeId)
    requires Valid(w) && s in w.scopes && impl.isDisposable
    requires FindContextWithin(w, s, b).Success?
    requires id !in w.scopes[FindContextWithin(w, s, b).value].cache
    requires Run(Shared(id, b, Construct(impl, ctor, ps)), w, s).0.Success?
    ensures var target := FindContextWithin(w, s, b).value;
            var (r, w1) := Run(Shared(id, b, Construct(impl, ctor, ps)), w, s);
            r.value in w1.scopes[target].bound && w1.scopes[target].cache[id] == r.value
  {
    var target := FindContextWithin(w, s, b).value;
    RunSharedUnfolds(id, b, Construct(impl, ctor, ps), w, s);
    RunConstructUnfolds(impl, ctor, ps, w, target);
  }
}

=== FILE: open_generic.dfy ===
/** The open-generic provider (`OpenGenericExportDescriptorProvider`): one provider holding every
    registration whose service type is a generic definition. A contract matches a registration
    when its generic definition is the registered service type; the registered implementation
    definition is then closed over the contract's type arguments and handed to the type
    provider's descriptor builder. */
module OpenGenericExports {
  import opened Results
  import opened Types
  import opened Promises
  import TypeExports

  datatype OpenGenericProvider = OpenGenericProvider(descriptors: seq<Registration>)

  /** A registration the provider accepts: a concrete generic definition implementing a generic
      definition service. */
  predicate OpenRegistrationValid(d: Registration) {
    && d.implementationType.Some?
    && !d.implementationType.value.isAbstract
    && !d.implementationType.value.isInterface
    && d.implementationType.value.IsGenericTypeDefinition()
    && d.serviceType.IsGenericTypeDefinition()
  }

  /** The exception the validation raises for a rejected registration: a missing implementation
      type is refused by `GetTypeInfo` with an argument-null error naming "type". */
  function RejectionOf(d: Registration): Error {
    if d.implementationType.None? then ArgumentNull("type")
    else TypeCannotBeActivated(d.implementationType.value, d.serviceType)
  }

  /** The provider's constructor: every registration is validated before any is kept, and the
      first rejected one, in registration order, determines the exception. */
  function NewOpenGenericProvider(ds: seq<Registration>): (r: Outcome<OpenGenericProvider>)
    ensures r.Success? <==> forall i :: 0 <= i < |ds| ==> OpenRegistrationValid(ds[i])
    ensures r.Success? ==> r.value.descriptors == ds
    ensures r.Failure? ==>
              exists k :: && 0 <= k < |ds| && !OpenRegistrationValid(ds[k])
                          && (forall j :: 0 <= j < k ==> OpenRegistrationValid(ds[j]))
                          && (ds[k].implementationType.None? ==> r.error == ArgumentNull("type"))
                          && (ds[k].implementationType.Some? ==>
                                r.error == TypeCannotBeActivated(ds[k].implementationType.value, ds[k].serviceType))
  {
    if ds == [] then Success(OpenGenericProvider([]))
    else if !OpenRegistrationValid(ds[0]) then Failure(RejectionOf(ds[0]))
    else
      var rest := NewOpenGenericProvider(ds[1..]);
      if rest.Failure? then
        assert forall i :: 0 < i < |ds| ==> ds[i] == ds[1..][i - 1];
        rest
      else
        assert ds == [ds[0]] + ds[1..];
        Success(OpenGenericProvider(ds))
  }

  /** The contract's type is generic and its definition is the registered service type. */
  predicate Matches(d: Registration, contract: Contract) {
    contract.contractType.IsGenericType() && contract.contractType.GetGenericTypeDefinition() == d.serviceType
  }

  /** `GetExportDescriptorPromise`: nothing for a non-matching registration; otherwise the type
      provider's promise for the implementation closed over the contract's type arguments.
      Closing fails, at query time, when the implementation's arity differs from the number of
      arguments the contract supplies, or when its generic-parameter constraints do not admit
      them; the `MakeGenericType` exception is the query's. */
  function GetExportDescriptorPromise(d: Registration, contract: Contract, env: Env): (r: Outcome<Option<Promise>>)
    requires d.implementationType.Some?
    ensures !Matches(d, contract) ==> r == Success(None)
    ensures Matches(d, contract) ==>
              (r.Success? <==> d.implementationType.value.IsGenericTypeDefinition()
                               && d.implementationType.value.genericity.arity == |contract.contractType.GenericTypeArguments()|
                               && env.admits(d.implementationType.value, contract.contractType.GenericTypeArguments()))
    ensures Matches(d, contract) && r.Failure? ==>
              r == Failure(MakeGenericType(d.implementationType.value, contract.contractType.GenericTypeArguments(), env.admits).error)
    ensures Matches(d, contract) && r.Success? ==> r.value.Some? && r.value.value.contract == contract && r.value.value.thunk.Known?
  {
    if !Matches(d, contract) then Success(None)
    else
      var closed :- MakeGenericType(d.implementationType.value, contract.contractType.GenericTypeArguments(), env.admits);
      Success(Some(TypeExports.GetTypedDescriptor(contract, contract.ChangeType(closed), d.lifetime, env, MefExtensions)))
  }

  /** The registrations a contract matches, in registration order. */
  function MatchingRegistrations(ds: seq<Registration>, contract: Contract): (r: seq<Registration>)
    ensures |r| <= |ds|
    ensures forall d :: d in r <==> d in ds && Matches(d, contract)
  {
    if ds == [] then []
    else (if Matches(ds[0], contract) then [ds[0]] else []) + MatchingRegistrations(ds[1..], contract)
  }

  predicate AllImplemented(ds: seq<Registration>) {
    forall i :: 0 <= i < |ds| ==> ds[i].implementationType.Some?
  }

  /** Every registration's answer to the contract, in registration order. */
  function Answers(ds: seq<Registration>, contract: Contract, env: Env): (r: seq<Outcome<Option<Promise>>>)
    requires AllImplemented(ds)
    ensures |r| == |ds|
    ensures forall i :: 0 <= i < |ds| ==> r[i] == GetExportDescriptorPromise(ds[i], contract, env)
    decreases |ds|
  {
    if ds == [] then []
    else
      var tail := ds[1..];
      assert AllImplemented(tail) by {
        assert forall i :: 0 <= i < |tail| ==> tail[i] == ds[i + 1];
      }
      var rest := Answers(tail, contract, env);
      var r := [GetExportDescriptorPromise(ds[0], contract, env)] + rest;
      assert forall i :: 0 < i < |ds| ==> r[i] == rest[i - 1] && tail[i - 1] == ds[i];
      r
  }

  /** The lazy `SelectMany ... Where`: the present promises, in order, failing at the first answer
      that failed. */
  function Gather(answers: seq<Outcome<Option<Promise>>>): (r: Outcome<seq<Promise>>)
    ensures r.Success? <==> forall i :: 0 <= i < |answers| ==> answers[i].Success?
    ensures r.Failure? ==> exists k :: FirstFailedAnswer(answers, k) && r.error == answers[k].error
    decreases |answers|
  {
    if answers == [] then Success([])
    else if answers[0].Failure? then
      assert FirstFailedAnswer(answers, 0);
      Failure(answers[0].error)
    else
      var rest := Gather(answers[1..]);
      assert forall i :: 0 < i < |answers| ==> answers[i] == answers[1..][i - 1];
      if rest.Failure? then
        var k :| FirstFailedAnswer(answers[1..], k) && rest.error == answers[1..][k].error;
        assert FirstFailedAnswer(answers, k + 1);
        Failure(rest.error)
      else Success((if answers[0].value.Some? then [answers[0].value.value] else []) + rest.value)
  }

  /** Answer `k` failed and every answer before it succeeded. */
  predicate FirstFailedAnswer(answers: seq<Outcome<Option<Promise>>>, k: int) {
    0 <= k < |answers| && answers[k].Failure? && forall j :: 0 <= j < k ==> answers[j].Success?
  }

  /** Whatever fails after the first failed answer, gathering reports that first failure. */
  lemma {:induction false} GatherFailsAtFirst(answers: seq<Outcome<Option<Promise>>>, k: int)
    requires FirstFailedAnswer(answers, k)
    ensures Gather(answers) == Failure(answers[k].error)
    decreases |answers|
  {
    if k > 0 {
      var tail := answers[1..];
      assert FirstFailedAnswer(tail, k - 1) by {
        assert forall j :: 0 <= j < k - 1 ==> tail[j] == answers[j + 1];
        assert tail[k - 1] == answers[k];
      }
      GatherFailsAtFirst(tail, k - 1);
    }
  }

  /** `GetExportDescriptors`: the promises of the matching registrations, in registration order.
      The query fails with the closing error of the first registration, in registration order,
      that cannot be closed. */
  function GetExportDescriptors(p: OpenGenericProvider, contract: Contract, env: Env): (r: Outcome<seq<Promise>>)
    requires AllImplemented(p.descriptors)
    ensures r.Success? <==>
              forall i :: 0 <= i < |p.descriptors| ==> GetExportDescriptorPromise(p.descriptors[i], contract, env).Success?
    ensures r.Failure? ==>
              exists k :: && 0 <= k < |p.descriptors|
                          && GetExportDescriptorPromise(p.descriptors[k], contract, env).Failure?
                          && (forall j :: 0 <= j < k ==> GetExportDescriptorPromise(p.descriptors[j], contract, env).Success?)
                          && r.error == GetExportDescriptorPromise(p.descriptors[k], contract, env).error
  {
    var answers := Answers(p.descriptors, contract, env);
    var r := Gather(answers);
    assert r.Failure? ==> exists k :: 0 <= k < |p.descriptors| && FirstFailedAnswer(answers, k) && r.error == answers[k].error by {
      if r.Failure? {
        var k :| FirstFailedAnswer(answers, k) && r.error == answers[k].error;
        assert 0 <= k < |p.descriptors|;
      }
    }
    r
  }

  /** Gathering a concatenation of answers concatenates what each part gathers. */
  lemma {:induction false} GatherAppend(x: seq<Outcome<Option<Promise>>>, y: seq<Outcome<Option<Promise>>>)
    ensures Gather(x + y).Success? <==> Gather(x).Success? && Gather(y).Success?
    ensures Gather(x + y).Success? ==> Gather(x + y).value == Gather(x).value + Gather(y).value
    decreases |x|
  {
    if x == [] {
      assert x + y == y;
    } else {
      assert (x + y)[0] == x[0];
      assert (x + y)[1..] == x[1..] + y;
      GatherAppend(x[1..], y);
    }
  }

  /** The answers of a concatenation of registrations are the concatenated answers. */
  lemma AnswersAppend(a: seq<Registration>, b: seq<Registration>, contract: Contract, env: Env)
    requires AllImplemented(a) && AllImplemented(b)
    ensures AllImplemented(a + b)
    ensures Answers(a + b, contract, env) == Answers(a, contract, env) + Answers(b, contract, env)
  {
    assert forall i :: 0 <= i < |a + b| ==> (a + b)[i] == if i < |a| then a[i] else b[i - |a|];
  }

  /** A provider holding a registration that matches the contract answers it with at least one
      promise. */
  lemma MatchingRegistrationAnswers(p: OpenGenericProvider, o: Registration, contract: Contract, env: Env)
    requires AllImplemented(p.descriptors)
    requires o in p.descriptors && Matches(o, contract)
    requires GetExportDescriptors(p, contract, env).Success?
    ensures |GetExportDescriptors(p, contract, env).value| >= 1
  {
    assert o in MatchingRegistrations(p.descriptors, contract);
    PromisesFollowMatchingRegistrations(p, contract, env);
  }

  /** One promise per matching registration, in registration order: the i-th promise is the
      answer of the i-th matching registration. */
  lemma {:induction false} PromisesFollowMatchingRegistrations(p: OpenGenericProvider, contract: Contract, env: Env)
    requires AllImplemented(p.descriptors)
    requires GetExportDescriptors(p, contract, env).Success?
    ensures var r := GetExportDescriptors(p, contract, env).value;
            var m := MatchingRegistrations(p.descriptors, contract);
            && |r| == |m|
            && forall i :: 0 <= i < |r| ==> Answered(contract, env, m[i], r[i])
    decreases |p.descriptors|
  {
    var ds := p.descriptors;
    if ds != [] {
      var tail := OpenGenericProvider(ds[1..]);
      var answers := Answers(ds, contract, env);
      var first := answers[0];
      assert answers[1..] == Answers(ds[1..], contract, env);
      assert first == GetExportDescriptorPromise(ds[0], contract, env);
      var rest := Gather(answers[1..]);
      assert first.Success? && rest.Success?;
      PromisesFollowMatchingRegistrations(tail, contract, env);
      var here := if first.value.Some? then [first.value.value] else [];
      var r := GetExportDescriptors(p, contract, env).value;
      assert r == here + rest.value;
      var m := MatchingRegistrations(ds, contract);
      var m' := MatchingRegistrations(ds[1..], contract);
      if Matches(ds[0], contract) {
        assert m == [ds[0]] + m';
        assert here == [first.value.value];
        var answered := (d, x) => Answered(contract, env, d, x);
        assert answered(ds[0], first.value.value);
        ShiftedPairs(answered, ds[0], m', first.value.value, rest.value);
      } else {
        assert here == [];
        assert m == m';
      }
    }
  }

  /** A relation holding pairwise between two lists still holds once a related pair is put in
      front of both. */
  lemma ShiftedPairs<A, B>(related: (A, B) -> bool, d: A, m: seq<A>, x: B, xs: seq<B>)
    requires related(d, x) && |m| == |xs|
    requires forall i :: 0 <= i < |xs| ==> related(m[i], xs[i])
    ensures forall i :: 0 <= i < |xs| + 1 ==> related(([d] + m)[i], ([x] + xs)[i])
  {
    forall i | 0 <= i < |xs| + 1 ensures related(([d] + m)[i], ([x] + xs)[i]) {
      if i > 0 {
        assert ([d] + m)[i] == m[i - 1] && ([x] + xs)[i] == xs[i - 1];
      }
    }
  }

  /** The registration answers the contract with the promise. */
  predicate Answered(contract: Contract, env: Env, d: Registration, x: Promise) {
    d.implementationType.Some? && GetExportDescriptorPromise(d, contract, env) == Success(Some(x))
  }

  /** A non-generic contract matches no open registration. */
  lemma {:induction false} NonGenericContractMatchesNothing(p: OpenGenericProvider, contract: Contract, env: Env)
    requires AllImplemented(p.descriptors)
    requires !contract.contractType.IsGenericType()
    ensures GetExportDescriptors(p, contract, env) == Success([])
    decreases |p.descriptors|
  {
    var ds := p.descriptors;
    if ds != [] {
      var answers := Answers(ds, contract, env);
      assert answers[1..] == Answers(ds[1..], contract, env);
      assert answers[0] == Success(None);
      NonGenericContractMatchesNothing(OpenGenericProvider(ds[1..]), contract, env);
      var none: seq<Promise> := [];
      assert Gather(answers[1..]) == Success(none);
      assert none + none == none;
    }
  }

  /** Registrations are queried in order: the answer for a concatenation is the concatenation of
      the answers. */
  lemma QueryDistributesOverRegistrations(a: seq<Registration>, b: seq<Registration>, contract: Contract, env: Env)
    requires AllImplemented(a) && AllImplemented(b)
    requires GetExportDescriptors(OpenGenericProvider(a), contract, env).Success?
    ensures AllImplemented(a + b)
    ensures GetExportDescriptors(OpenGenericProvider(a + b), contract, env).Success?
            <==> GetExportDescriptors(OpenGenericProvider(b), contract, env).Success?
    ensures GetExportDescriptors(OpenGenericProvider(b), contract, env).Success? ==>
              GetExportDescriptors(OpenGenericProvider(a + b), contract, env).value
              == GetExportDescriptors(OpenGenericProvider(a), contract, env).value
                 + GetExportDescriptors(OpenGenericProvider(b), contract, env).value
  {
    AnswersAppend(a, b, contract, env);
    GatherAppend(Answers(a, contract, env), Answers(b, contract, env));
  }

  /** A matching registration whose implementation's constraints do not admit the contract's
      type arguments fails the whole query with the constraint error, even when its arity fits
      (`IRepo<>` implemented by `Repo<T> where T : class`, queried as `IRepo<int>`). */
  lemma ConstraintViolationFailsQuery(p: OpenGenericProvider, k: int, contract: Contract, env: Env)
    requires AllImplemented(p.descriptors)
    requires 0 <= k < |p.descriptors| && OpenRegistrationValid(p.descriptors[k]) && Matches(p.descriptors[k], contract)
    requires p.descriptors[k].implementationType.value.genericity.arity == |contract.contractType.GenericTypeArguments()|
    requires !env.admits(p.descriptors[k].implementationType.value, contract.contractType.GenericTypeArguments())
    ensures GetExportDescriptorPromise(p.descriptors[k], contract, env)
            == Failure(GenericConstraintViolated(p.descriptors[k].implementationType.value, contract.contractType.GenericTypeArguments()))
    ensures GetExportDescriptors(p, contract, env).Failure?
    ensures (forall j :: 0 <= j < k ==> GetExportDescriptorPromise(p.descriptors[j], contract, env).Success?) ==>
              GetExportDescriptors(p, contract, env)
              == Failure(GenericConstraintViolated(p.descriptors[k].implementationType.value, contract.contractType.GenericTypeArguments()))
  {
    var answers := Answers(p.descriptors, contract, env);
    if forall j :: 0 <= j < k ==> GetExportDescriptorPromise(p.descriptors[j], contract, env).Success? {
      assert FirstFailedAnswer(answers, k);
      GatherFailsAtFirst(answers, k);
    }
  }

  /** A matching registration whose implementation has the contract's arity yields a promise
      built by the implementation definition closed over exactly the contract's type arguments;
      when the selection succeeds, that closed type is what gets constructed. */
  lemma ClosedImplementationIsConstructed(d: Registration, contract: Contract, env: Env)
    requires OpenRegistrationValid(d) && Matches(d, contract)
    requires d.implementationType.value.genericity.arity == |contract.contractType.GenericTypeArguments()|
    requires env.admits(d.implementationType.value, contract.contractType.GenericTypeArguments())
    ensures var r := GetExportDescriptorPromise(d, contract, env);
            && r.Success? && r.value.Some?
            && exists closed: Ty ::
                 && closed.IsConstructedGenericType()
                 && closed.GetGenericTypeDefinition() == d.implementationType.value
                 && closed.GenericTypeArguments() == contract.contractType.GenericTypeArguments()
                 && r.value.value == TypeExports.GetTypedDescriptor(contract, contract.ChangeType(closed), d.lifetime, env, MefExtensions)
    ensures var r := GetExportDescriptorPromise(d, contract, env);
            r.value.value.plan.Create? ==>
              && r.value.value.plan.implementation.GetGenericTypeDefinition() == d.implementationType.value
              && r.value.value.plan.implementation.GenericTypeArguments() == contract.contractType.GenericTypeArguments()
              && r.value.value.plan.lifetime == d.lifetime
  {
    var closed := MakeGenericType(d.implementationType.value, contract.contractType.GenericTypeArguments(), env.admits).value;
    assert contract.ChangeType(closed).contractType == closed;
  }
}

=== FILE: promises.dfy ===
/** Export promises: what a provider answers for a contract. A promise names its contract and
    origin, says how to discover its dependencies, and says how to build its activator once
    the dependencies' own activators exist (`ExportDescriptorPromise`). */
module Promises {
  import opened Results
  import opened Types
  import opened Lifetimes

  /** How a promise's activator is built from the activators of its dependencies' targets. */
  datatype Plan =
      /** The deferred failure of a type with no composable constructor. */
    | Deferred(error: Error)
      /** Construct the implementation with the chosen constructor, then apply the lifetime. */
    | Create(implementation: Ty, ctor: Ctor, lifetime: Lifetime)
      /** Return the array of every item dependency's instance. */
    | CollectItems
      /** A registered instance. */
    | Provide(instance: Instance)
      /** A registered factory for the service type. */
    | CallFactory(serviceType: Ty, factory: nat, lifetime: Lifetime)

  /** The lazy dependency-discovery function of a promise: either a fixed list, or the thunk of a
      synthesised sequence promise that resolves every export of its element contract. */
  datatype DependencyThunk = Known(dependencies: seq<Dependency>) | ItemsOf(element: Contract)

  datatype Promise = Promise(contract: Contract, origin: string, isShared: bool, thunk: DependencyThunk, plan: Plan)

  /** A satisfied dependency: the site that asked, the contract asked for, and the promise chosen. */
  datatype Dependency = Dependency(site: string, contract: Contract, target: Promise)

  /** What the rest of the composition engine looks like from a provider: MEF's
      `DependencyAccessor`, answering whether a contract has an export, and, standing in for
      reflection, the table of declared constructors and the generic-parameter constraint check. */
  datatype Env = Env(resolve: Contract -> Option<Dependency>, constructorsOf: Ty -> seq<Ctor>, admits: ConstraintOracle)

  const NoDependencies: DependencyThunk := Known([])

  /** The descriptor-build function of a promise: turns the activators of its dependencies'
      targets, in dependency order, into the promise's own activator. Only lifetime wrapping
      consumes a sharing id; the deferred-failure activator is never wrapped. */
  function BuildDescriptor(plan: Plan, targets: seq<Activator>, nextSharingId: nat): (r: (Activator, nat))
    ensures plan.Deferred? ==> r == (Throwing(plan.error), nextSharingId)
    ensures plan.Create? ==>
              r == ApplyServiceLifetime(Construct(plan.implementation, plan.ctor, targets), plan.lifetime, nextSharingId)
    ensures plan.CollectItems? ==> r == (Collect(targets), nextSharingId)
  {
    match plan
    case Deferred(e) => (Throwing(e), nextSharingId)
    case Create(impl, ctor, lifetime) => ApplyServiceLifetime(Construct(impl, ctor, targets), lifetime, nextSharingId)
    case CollectItems => (Collect(targets), nextSharingId)
    case Provide(x) => (Supply(x), nextSharingId)
    case CallFactory(t, _, lifetime) => ApplyServiceLifetime(Produce(t), lifetime, nextSharingId)
  }

  /** A deferred failure surfaces only when the activator runs: building it allocates no sharing
      id, and every run, in any scope, throws the captured error and changes nothing. */
  lemma DeferredFailureRaisedOnlyWhenRun(e: Error, targets: seq<Activator>, nextSharingId: nat, w: World, s: ScopeId)
    requires Valid(w) && s in w.scopes
    ensures var (a, next) := BuildDescriptor(Deferred(e), targets, nextSharingId);
            next == nextSharingId && Run(a, w, s) == (Failure(e), w)
  {
  }
}

=== FILE: providers.dfy ===
/** The export descriptor providers the container registers with the aggregate. The type and
    open-generic providers are modelled in their own modules; the instance and factory providers
    are reduced to what the container relies on: one promise for a contract of exactly their
    service type. */
module Providers {
  import opened Results
  import opened Types
  import opened Promises
  import TypeExports
  import OpenGenericExports

  datatype Provider =
    | TypeExport(typeProvider: TypeExports.TypeProvider)
    | InstanceExport(serviceType: Ty, instance: Instance)
    | FactoryExport(serviceType: Ty, factory: nat, lifetime: Lifetime)
    | OpenGenericExport(openGeneric: OpenGenericExports.OpenGenericProvider)

  /** What the container guarantees of every provider it builds: the open-generic provider only
      holds registrations with an implementation type. */
  predicate WellFormed(p: Provider) {
    p.OpenGenericExport? ==> OpenGenericExports.AllImplemented(p.openGeneric.descriptors)
  }

  /** The service type a closed provider answers for. */
  function ServiceTypeOf(p: Provider): Ty
    requires !p.OpenGenericExport?
  {
    match p
    case TypeExport(t) => t.serviceType
    case InstanceExport(t, _) => t
    case FactoryExport(t, _, _) => t
  }

  /** A provider's answer to a contract. Only the open-generic provider can fail, when closing a
      generic definition over the contract's arguments fails. */
  function GetExportDescriptors(p: Provider, contract: Contract, env: Env): (r: Outcome<seq<Promise>>)
    requires WellFormed(p)
    ensures !p.OpenGenericExport? ==> r.Success? && |r.value| <= 1
    ensures !p.OpenGenericExport? ==> (|r.value| == 1 <==> contract.contractType == ServiceTypeOf(p))
    ensures r.Success? ==> forall i :: 0 <= i < |r.value| ==> r.value[i].contract == contract
    ensures r.Success? ==> forall i :: 0 <= i < |r.value| ==> r.value[i].thunk.Known?
  {
    match p
    case TypeExport(t) =>
      Success(TypeExports.GetExportDescriptors(t, contract, env))
    case InstanceExport(t, x) =>
      if contract.contractType == t then Success([Promise(contract, t.name, false, NoDependencies, Provide(x))])
      else Success([])
    case FactoryExport(t, f, lifetime) =>
      if contract.contractType == t then Success([Promise(contract, t.name, false, NoDependencies, CallFactory(t, f, lifetime))])
      else Success([])
    case OpenGenericExport(o) =>
      var r := OpenGenericExports.GetExportDescriptors(o, contract, env);
      if r.Success? then
        OpenGenericExports.PromisesFollowMatchingRegistrations(o, contract, env);
        r
      else r
  }
}

=== FILE: results.dfy ===
/** Failure-compatible wrappers. Every exception the container throws is modelled as a
    `Failure` carrying a tagged error, and every nullable reference as an `Option`. */
module Results {

  datatype Option<+T> = None | Some(value: T)

  datatype Result<+T, +E> = Success(value: T) | Failure(error: E) {

    predicate IsFailure() {
      Failure?
    }

    function PropagateFailure<U>(): Result<U, E>
      requires Failure?
    {
      Failure(error)
    }

    function Extract(): T
      requires Success?
    {
      value
    }
  }

  /** Concatenation is associative; stated once so that proofs can regroup a concatenation
      without the solver searching for it. */
  lemma SeqAssoc<T>(a: seq<T>, b: seq<T>, c: seq<T>)
    ensures (a + b) + c == a + (b + c)
  {
  }

  /** Cutting a sequence at any position and joining the two parts gives it back. */
  lemma SeqSplit<T>(s: seq<T>, i: nat)
    requires i <= |s|
    ensures s[..i] + s[i..] == s
  {
  }

  /** Indexing a concatenation reads from the part the index falls in. */
  lemma ConcatIndex<T>(a: seq<T>, b: seq<T>, j: nat)
    requires j < |a| + |b|
    ensures (a + b)[j] == if j < |a| then a[j] else b[j - |a|]
  {
  }

  /** A non-empty sequence is its head followed by its tail. */
  lemma SeqCons<T>(s: seq<T>)
    requires s != []
    ensures [s[0]] + s[1..] == s
  {
  }

  /** The first `k + 1` elements are the head followed by the first `k` elements of the tail. */
  lemma SeqPrefixOfTail<T>(s: seq<T>, k: nat)
    requires k < |s|
    ensures s[..k + 1][0] == s[0]
    ensures s[..k + 1][1..] == s[1..][..k]
  {
  }
}

=== FILE: selection.dfy ===
/** Constructor selection (`TryGetLongestComposableConstructor` and
    `TryResolveConstructorDependencies` in both generations of `TypeExportDescriptorProvider`).

    The candidates are the public constructors ordered by descending parameter count; LINQ's
    `OrderByDescending` is stable, so constructors of equal arity keep their declaration order.
    The first candidate whose every parameter resolves is chosen. */
module Selection {
  import opened Results
  import opened Types
  import opened Promises

  function Arity(c: Ctor): nat {
    |c.parameters|
  }

  /** Ordered from most to fewest parameters. */
  ghost predicate DescendingArity(s: seq<Ctor>) {
    forall i, j :: 0 <= i < j < |s| ==> Arity(s[i]) >= Arity(s[j])
  }

  /** The constructors of arity `n`, in their order in `s`. */
  function WithArity(s: seq<Ctor>, n: nat): (r: seq<Ctor>)
    ensures |r| <= |s|
  {
    if s == [] then []
    else (if Arity(s[0]) == n then [s[0]] else []) + WithArity(s[1..], n)
  }

  function PublicOnly(s: seq<Ctor>): (r: seq<Ctor>)
    ensures forall c :: c in r <==> c in s && c.isPublic
  {
    if s == [] then []
    else (if s[0].isPublic then [s[0]] else []) + PublicOnly(s[1..])
  }

  /** Inserts `c` after every constructor of `sorted` with at least as many parameters. */
  function InsertByArity(c: Ctor, sorted: seq<Ctor>): seq<Ctor> {
    if sorted == [] then [c]
    else if Arity(sorted[0]) >= Arity(c) then [sorted[0]] + InsertByArity(c, sorted[1..])
    else [c] + sorted
  }

  /** Stable sort by descending arity, by insertion in declaration order. */
  function SortByArity(s: seq<Ctor>): seq<Ctor> {
    if s == [] then [] else InsertByArity(s[|s| - 1], SortByArity(s[..|s| - 1]))
  }

  lemma {:induction false} WithArityAppend(a: seq<Ctor>, b: seq<Ctor>, n: nat)
    ensures WithArity(a + b, n) == WithArity(a, n) + WithArity(b, n)
    decreases |a|
  {
    if a == [] {
      assert a + b == b;
    } else {
      var head := if Arity(a[0]) == n then [a[0]] else [];
      assert (a + b)[0] == a[0];
      assert (a + b)[1..] == a[1..] + b;
      calc {
        WithArity(a + b, n);
        head + WithArity(a[1..] + b, n);
        { WithArityAppend(a[1..], b, n); }
        head + (WithArity(a[1..], n) + WithArity(b, n));
        (head + WithArity(a[1..], n)) + WithArity(b, n);
      }
    }
  }

  lemma {:induction false} WithArityNoneAbove(s: seq<Ctor>, n: nat)
    requires forall i :: 0 <= i < |s| ==> Arity(s[i]) < n
    ensures WithArity(s, n) == []
    decreases |s|
  {
    if s != [] {
      WithArityNoneAbove(s[1..], n);
    }
  }

  lemma {:induction false} InsertMultiset(c: Ctor, s: seq<Ctor>)
    ensures multiset(InsertByArity(c, s)) == multiset(s) + multiset{c}
    decreases |s|
  {
    if s != [] && Arity(s[0]) >= Arity(c) {
      InsertMultiset(c, s[1..]);
      assert s == [s[0]] + s[1..];
    }
  }

  /** The tail of a descending list is descending, and bounded by its head. */
  lemma DescendingTail(s: seq<Ctor>)
    requires s != [] && DescendingArity(s)
    ensures DescendingArity(s[1..])
    ensures forall i :: 0 <= i < |s| - 1 ==> Arity(s[1..][i]) <= Arity(s[0])
  {
    var tail := s[1..];
    assert forall i :: 0 <= i < |tail| ==> tail[i] == s[i + 1];
  }

  /** A constructor with at least as many parameters as everything after it keeps the order. */
  lemma ConsDescending(x: Ctor, t: seq<Ctor>)
    requires DescendingArity(t)
    requires forall i :: 0 <= i < |t| ==> Arity(t[i]) <= Arity(x)
    ensures DescendingArity([x] + t)
  {
    var r := [x] + t;
    forall i, j | 0 <= i < j < |r| ensures Arity(r[i]) >= Arity(r[j]) {
      assert r[j] == t[j - 1];
      if i > 0 {
        assert r[i] == t[i - 1];
      }
    }
  }

  /** Inserting keeps every arity within a common bound. */
  lemma {:induction false} InsertBounded(c: Ctor, s: seq<Ctor>, n: nat)
    requires Arity(c) <= n
    requires forall i :: 0 <= i < |s| ==> Arity(s[i]) <= n
    ensures forall i :: 0 <= i < |InsertByArity(c, s)| ==> Arity(InsertByArity(c, s)[i]) <= n
    decreases |s|
  {
    if s != [] && Arity(s[0]) >= Arity(c) {
      var tail := s[1..];
      assert forall i :: 0 <= i < |tail| ==> tail[i] == s[i + 1];
      InsertBounded(c, tail, n);
      var rest := InsertByArity(c, tail);
      assert forall i :: 0 < i < |rest| + 1 ==> ([s[0]] + rest)[i] == rest[i - 1];
    } else if s != [] {
      assert forall i :: 0 < i < |s| + 1 ==> ([c] + s)[i] == s[i - 1];
    }
  }

  lemma {:induction false} InsertDescending(c: Ctor, s: seq<Ctor>)
    requires DescendingArity(s)
    ensures DescendingArity(InsertByArity(c, s))
    decreases |s|
  {
    if s == [] {
    } else if Arity(s[0]) >= Arity(c) {
      var tail := s[1..];
      DescendingTail(s);
      InsertDescending(c, tail);
      InsertBounded(c, tail, Arity(s[0]));
      ConsDescending(s[0], InsertByArity(c, tail));
    } else {
      ConsDescending(c, s);
    }
  }

  lemma {:induction false} InsertStable(c: Ctor, s: seq<Ctor>, n: nat)
    requires DescendingArity(s)
    ensures WithArity(InsertByArity(c, s), n) == WithArity(s, n) + (if Arity(c) == n then [c] else [])
    decreases |s|
  {
    var extra := if Arity(c) == n then [c] else [];
    if s == [] {
      WithAritySingle(c, n);
      assert extra + [] == extra;
    } else if Arity(s[0]) >= Arity(c) {
      var tail := s[1..];
      DescendingTail(s);
      InsertStable(c, tail, n);
      var head := WithArity([s[0]], n);
      WithArityAppend([s[0]], InsertByArity(c, tail), n);
      WithArityAppend([s[0]], tail, n);
      assert s == [s[0]] + tail;
      SeqAssoc(head, WithArity(tail, n), extra);
    } else {
      WithArityAppend([c], s, n);
      WithAritySingle(c, n);
      if Arity(c) == n {
        assert forall i :: 0 <= i < |s| ==> Arity(s[i]) <= Arity(s[0]);
        WithArityNoneAbove(s, n);
      }
    }
  }

  lemma WithAritySingle(x: Ctor, n: nat)
    ensures WithArity([x], n) == if Arity(x) == n then [x] else []
  {
    assert [x][1..] == [];
  }

  lemma {:induction false} SortDescending(s: seq<Ctor>)
    ensures DescendingArity(SortByArity(s))
    decreases |s|
  {
    if s != [] {
      SortDescending(s[..|s| - 1]);
      InsertDescending(s[|s| - 1], SortByArity(s[..|s| - 1]));
    }
  }

  lemma {:induction false} SortPermutes(s: seq<Ctor>)
    ensures multiset(SortByArity(s)) == multiset(s)
    decreases |s|
  {
    if s != [] {
      var init := s[..|s| - 1];
      SortPermutes(init);
      InsertMultiset(s[|s| - 1], SortByArity(init));
      assert s == init + [s[|s| - 1]];
    }
  }

  lemma {:induction false} SortStable(s: seq<Ctor>, n: nat)
    ensures WithArity(SortByArity(s), n) == WithArity(s, n)
    decreases |s|
  {
    if s != [] {
      var init := s[..|s| - 1];
      var last := s[|s| - 1];
      SortStable(init, n);
      SortDescending(init);
      InsertStable(last, SortByArity(init), n);
      WithArityAppend(init, [last], n);
      assert s == init + [last];
    }
  }

  /** The insertion sort is a stable sort by descending arity. */
  lemma SortByArityCorrect(s: seq<Ctor>)
    ensures DescendingArity(SortByArity(s))
    ensures multiset(SortByArity(s)) == multiset(s)
    ensures forall n :: WithArity(SortByArity(s), n) == WithArity(s, n)
  {
    SortDescending(s);
    SortPermutes(s);
    forall n ensures WithArity(SortByArity(s), n) == WithArity(s, n) {
      SortStable(s, n);
    }
  }

  /** The candidate list: the public constructors, most parameters first, ties in declaration
      order. Stated as the properties that pin a stable descending sort down uniquely. */
  function Candidates(ctors: seq<Ctor>): (r: seq<Ctor>)
    ensures DescendingArity(r)
    ensures multiset(r) == multiset(PublicOnly(ctors))
    ensures forall c :: c in r <==> c in ctors && c.isPublic
    ensures forall n :: WithArity(r, n) == WithArity(PublicOnly(ctors), n)
  {
    SortByArityCorrect(PublicOnly(ctors));
    var r := SortByArity(PublicOnly(ctors));
    assert forall c :: c in r <==> c in multiset(r);
    r
  }

  /** The outcome of resolving a constructor's parameters. */
  datatype ParameterResolution = Resolved(dependencies: seq<Dependency>) | Unresolved(failedType: Ty)

  predicate Resolvable(env: Env, t: Ty) {
    env.resolve(ContractFor(t)).Some?
  }

  predicate Composable(env: Env, c: Ctor) {
    forall i :: 0 <= i < |c.parameters| ==> Resolvable(env, c.parameters[i])
  }

  /** Resolves parameters left to right as optional "parameter" dependencies, stopping at the
      first that does not resolve and reporting its type. */
  function ResolveParameters(params: seq<Ty>, env: Env): (r: ParameterResolution)
    ensures r.Resolved? <==> forall i :: 0 <= i < |params| ==> Resolvable(env, params[i])
    ensures r.Resolved? ==>
              && |r.dependencies| == |params|
              && forall i :: 0 <= i < |params| ==> env.resolve(ContractFor(params[i])) == Some(r.dependencies[i])
    ensures r.Unresolved? ==>
              exists k :: 0 <= k < |params| && r.failedType == params[k] && !Resolvable(env, params[k])
                          && forall j :: 0 <= j < k ==> Resolvable(env, params[j])
  {
    if params == [] then Resolved([])
    else
      match env.resolve(ContractFor(params[0]))
      case None => Unresolved(params[0])
      case Some(d) =>
        var rest := ResolveParameters(params[1..], env);
        if rest.Unresolved? then
          assert forall i :: 0 < i < |params| ==> params[i] == params[1..][i - 1];
          rest
        else
          Resolved([d] + rest.dependencies)
  }

  /** The position of the first composable candidate, if any. */
  function FirstComposable(cands: seq<Ctor>, env: Env): (r: Option<nat>)
    ensures r.Some? ==> r.value < |cands| && Composable(env, cands[r.value])
    ensures r.Some? ==> forall j :: 0 <= j < r.value ==> !Composable(env, cands[j])
    ensures r.None? ==> forall j :: 0 <= j < |cands| ==> !Composable(env, cands[j])
  {
    if cands == [] then None
    else if ResolveParameters(cands[0].parameters, env).Resolved? then Some(0)
    else
      match FirstComposable(cands[1..], env)
      case None => None
      case Some(k) => Some(k + 1)
  }

  datatype Selection = Selected(ctor: Ctor, dependencies: seq<Dependency>) | NotComposable(error: Error)

  /** The error captured when no candidate composes. The older generation always reports
      no-constructor-match; the newer one reports by candidate count, naming the failed
      parameter when there was exactly one candidate. */
  function SelectionError(impl: Ty, cands: seq<Ctor>, env: Env, generation: Generation): (e: Error)
    requires forall j :: 0 <= j < |cands| ==> !Composable(env, cands[j])
    ensures generation == Okra || |cands| == 0 ==> e == NoConstructorMatch(impl)
    ensures generation == MefExtensions && |cands| == 1 ==>
              exists k :: 0 <= k < Arity(cands[0])
                          && e == CannotResolveService(cands[0].parameters[k], impl)
                          && !Resolvable(env, cands[0].parameters[k])
                          && forall j :: 0 <= j < k ==> Resolvable(env, cands[0].parameters[j])
    ensures generation == MefExtensions && |cands| >= 2 ==> e == UnableToActivateType(impl)
  {
    if generation == Okra || |cands| == 0 then NoConstructorMatch(impl)
    else if |cands| == 1 then
      var p := ResolveParameters(cands[0].parameters, env);
      assert !Composable(env, cands[0]);
      CannotResolveService(p.failedType, impl)
    else UnableToActivateType(impl)
  }

  lemma CandidatesLength(ctors: seq<Ctor>)
    ensures |Candidates(ctors)| == |PublicOnly(ctors)|
  {
    assert |multiset(Candidates(ctors))| == |multiset(PublicOnly(ctors))|;
  }

  lemma SingleCandidate(ctors: seq<Ctor>)
    requires |PublicOnly(ctors)| == 1
    ensures Candidates(ctors) == PublicOnly(ctors)
  {
    CandidatesLength(ctors);
    var cands := Candidates(ctors);
    assert cands[0] in multiset(PublicOnly(ctors));
  }

  /** Every public constructor longer than the k-th candidate comes before it in the list. */
  lemma NothingLongerComposes(ctors: seq<Ctor>, env: Env, k: nat)
    requires k < |Candidates(ctors)|
    requires forall j :: 0 <= j < k ==> !Composable(env, Candidates(ctors)[j])
    ensures forall c :: c in ctors && c.isPublic && Arity(c) > Arity(Candidates(ctors)[k]) ==> !Composable(env, c)
  {
    var cands := Candidates(ctors);
    forall c | c in ctors && c.isPublic && Arity(c) > Arity(cands[k])
      ensures !Composable(env, c)
    {
      assert c in cands;
      var j :| 0 <= j < |cands| && cands[j] == c;
      LongerComesFirst(cands, j, k);
    }
  }

  /** In a list ordered by descending arity, a constructor longer than another precedes it. */
  lemma LongerComesFirst(s: seq<Ctor>, j: nat, k: nat)
    requires DescendingArity(s)
    requires j < |s| && k < |s| && Arity(s[j]) > Arity(s[k])
    ensures j < k
  {
  }

  lemma NoneComposes(ctors: seq<Ctor>, env: Env)
    requires forall j :: 0 <= j < |Candidates(ctors)| ==> !Composable(env, Candidates(ctors)[j])
    ensures forall c :: c in ctors && c.isPublic ==> !Composable(env, c)
  {
    var cands := Candidates(ctors);
    forall c | c in ctors && c.isPublic ensures !Composable(env, c) {
      assert c in cands;
      var j :| 0 <= j < |cands| && cands[j] == c;
    }
  }

  /** `TryGetLongestComposableConstructor`. */
  function TryGetLongestComposableConstructor(impl: Ty, ctors: seq<Ctor>, env: Env, generation: Generation): (r: Selection)
    ensures r.Selected? <==> exists c :: c in ctors && c.isPublic && Composable(env, c)
    ensures r.Selected? ==>
              && r.ctor in ctors && r.ctor.isPublic && Composable(env, r.ctor)
              && |r.dependencies| == Arity(r.ctor)
              && (forall i :: 0 <= i < Arity(r.ctor) ==>
                    env.resolve(ContractFor(r.ctor.parameters[i])) == Some(r.dependencies[i]))
    ensures r.Selected? ==>
              forall c :: c in ctors && c.isPublic && Arity(c) > Arity(r.ctor) ==> !Composable(env, c)
    ensures r.Selected? ==> FirstComposableOfArity(PublicOnly(ctors), env, r.ctor)
    ensures r.NotComposable? && (generation == Okra || |PublicOnly(ctors)| == 0) ==>
              r.error == NoConstructorMatch(impl)
    ensures r.NotComposable? && generation == MefExtensions && |PublicOnly(ctors)| == 1 ==>
              exists k :: 0 <= k < Arity(PublicOnly(ctors)[0])
                          && r.error == CannotResolveService(PublicOnly(ctors)[0].parameters[k], impl)
                          && !Resolvable(env, PublicOnly(ctors)[0].parameters[k])
                          && forall j :: 0 <= j < k ==> Resolvable(env, PublicOnly(ctors)[0].parameters[j])
    ensures r.NotComposable? && generation == MefExtensions && |PublicOnly(ctors)| >= 2 ==>
              r.error == UnableToActivateType(impl)
  {
    var cands := Candidates(ctors);
    match FirstComposable(cands, env)
    case Some(k) =>
      SelectedIsLongest(ctors, env, k);
      FirstInArityClass(cands, env, k, Arity(cands[k]));
      var chosen := cands[k];
      var deps := ResolveParameters(chosen.parameters, env);
      Selected(chosen, deps.dependencies)
    case None =>
      NotSelectedError(impl, ctors, env, generation);
      NotComposable(SelectionError(impl, cands, env, generation))
  }

  /** Among the constructors of `s` with as many parameters as `c`, in their order in `s`, `c` is
      the first that composes: ties between composable constructors of equal arity go to the one
      declared first. */
  ghost predicate FirstComposableOfArity(s: seq<Ctor>, env: Env, c: Ctor) {
    var ties := WithArity(s, Arity(c));
    exists i :: 0 <= i < |ties| && ties[i] == c && forall j :: 0 <= j < i ==> !Composable(env, ties[j])
  }

  /** If nothing before position `k` of `s` composes, `s[k]` is the first composable constructor
      of its arity class, and so it is in any list with the same arity classes. */
  lemma {:induction false} FirstInArityClass(s: seq<Ctor>, env: Env, k: nat, n: nat)
    requires k < |s| && Arity(s[k]) == n
    requires forall j :: 0 <= j < k ==> !Composable(env, s[j])
    ensures exists i :: 0 <= i < |WithArity(s, n)| && WithArity(s, n)[i] == s[k]
                        && forall j :: 0 <= j < i ==> !Composable(env, WithArity(s, n)[j])
    decreases |s|
  {
    var ties := WithArity(s, n);
    var head := if Arity(s[0]) == n then [s[0]] else [];
    assert ties == head + WithArity(s[1..], n);
    if k == 0 {
      assert ties[0] == s[0];
    } else {
      var tail := s[1..];
      assert forall j :: 0 <= j < k - 1 ==> tail[j] == s[j + 1];
      FirstInArityClass(tail, env, k - 1, n);
      var rest := WithArity(tail, n);
      var i :| 0 <= i < |rest| && rest[i] == tail[k - 1] && forall j :: 0 <= j < i ==> !Composable(env, rest[j]);
      ConcatIndex(head, rest, |head| + i);
      forall j | 0 <= j < |head| + i ensures !Composable(env, ties[j]) {
        ConcatIndex(head, rest, j);
      }
    }
  }

  /** The first composable candidate is a composable public constructor, and no public
      constructor with more parameters composes. */
  lemma SelectedIsLongest(ctors: seq<Ctor>, env: Env, k: nat)
    requires FirstComposable(Candidates(ctors), env) == Some(k)
    ensures k < |Candidates(ctors)|
    ensures Candidates(ctors)[k] in ctors && Candidates(ctors)[k].isPublic && Composable(env, Candidates(ctors)[k])
    ensures forall c :: c in ctors && c.isPublic && Arity(c) > Arity(Candidates(ctors)[k]) ==> !Composable(env, c)
  {
    NothingLongerComposes(ctors, env, k);
    assert Candidates(ctors)[k] in Candidates(ctors);
  }

  /** With no composable candidate, no public constructor composes, and the error is chosen by
      the number of public constructors. */
  lemma NotSelectedError(impl: Ty, ctors: seq<Ctor>, env: Env, generation: Generation)
    requires FirstComposable(Candidates(ctors), env).None?
    ensures forall j :: 0 <= j < |Candidates(ctors)| ==> !Composable(env, Candidates(ctors)[j])
    ensures forall c :: c in ctors && c.isPublic ==> !Composable(env, c)
    ensures var e := SelectionError(impl, Candidates(ctors), env, generation);
            && (generation == Okra || |PublicOnly(ctors)| == 0 ==> e == NoConstructorMatch(impl))
            && (generation == MefExtensions && |PublicOnly(ctors)| == 1 ==>
                  exists k :: 0 <= k < Arity(PublicOnly(ctors)[0])
                              && e == CannotResolveService(PublicOnly(ctors)[0].parameters[k], impl)
                              && !Resolvable(env, PublicOnly(ctors)[0].parameters[k])
                              && forall j :: 0 <= j < k ==> Resolvable(env, PublicOnly(ctors)[0].parameters[j]))
            && (generation == MefExtensions && |PublicOnly(ctors)| >= 2 ==> e == UnableToActivateType(impl))
  {
    CandidatesLength(ctors);
    NoneComposes(ctors, env);
    if |PublicOnly(ctors)| == 1 {
      SingleCandidate(ctors);
    }
  }

  /** A worked example of the tie-break: of two composable public constructors with the same
      parameter count, the one declared first is chosen. */
  lemma TieGoesToFirstDeclared(k1: Ctor, k2: Ctor, env: Env, impl: Ty, generation: Generation)
    requires k1.isPublic && k2.isPublic && Arity(k1) == Arity(k2)
    requires Composable(env, k1) && Composable(env, k2)
    ensures TryGetLongestComposableConstructor(impl, [k1, k2], env, generation).Selected?
    ensures TryGetLongestComposableConstructor(impl, [k1, k2], env, generation).ctor == k1
  {
    var ctors := [k1, k2];
    assert k1 in ctors;
    var r := TryGetLongestComposableConstructor(impl, ctors, env, generation);
    PairArityClass(k1, k2);
    assert FirstComposableOfArity([k1, k2], env, r.ctor);
    var ties := WithArity([k1, k2], Arity(r.ctor));
    var i :| 0 <= i < |ties| && ties[i] == r.ctor && forall j :: 0 <= j < i ==> !Composable(env, ties[j]);
    assert ties[0] == k1;
  }

  /** Two public constructors of one arity are their own public list and their own arity class. */
  lemma PairArityClass(k1: Ctor, k2: Ctor)
    requires k1.isPublic && k2.isPublic && Arity(k1) == Arity(k2)
    ensures PublicOnly([k1, k2]) == [k1, k2]
    ensures WithArity([k1, k2], Arity(k1)) == [k1, k2]
  {
    assert [k1, k2][1..] == [k2];
    assert [k2][1..] == [];
    assert PublicOnly([k2]) == [k2];
    assert WithArity([k2], Arity(k1)) == [k2];
  }

  /** A worked example: with public constructors taking (A, B, C), (A, B) and (A),
      declared in any order, and B unresolvable, the (A) constructor is chosen. */
  lemma LongestResolvableConstructorWins(a: Ty, b: Ty, c: Ty, k3: Ctor, k2: Ctor, k1: Ctor,
                                         ctors: seq<Ctor>, env: Env, impl: Ty, generation: Generation)
    requires k3.isPublic && k3.parameters == [a, b, c]
    requires k2.isPublic && k2.parameters == [a, b]
    requires k1.isPublic && k1.parameters == [a]
    requires multiset(ctors) == multiset{k3, k2, k1}
    requires Resolvable(env, a) && !Resolvable(env, b)
    ensures TryGetLongestComposableConstructor(impl, ctors, env, generation).Selected?
    ensures TryGetLongestComposableConstructor(impl, ctors, env, generation).ctor == k1
  {
    assert k1 in multiset(ctors);
    assert Composable(env, k1);
    assert !Composable(env, k2) && !Composable(env, k3) by {
      assert k2.parameters[1] == b && k3.parameters[1] == b;
    }
    var r := TryGetLongestComposableConstructor(impl, ctors, env, generation);
    assert r.ctor in multiset(ctors);
  }
}

=== FILE: type_exports.dfy ===
/** The type provider (`TypeExportDescriptorProvider`, both generations): answers a contract of
    exactly its service type with one promise that constructs the implementation through its
    longest composable public constructor, or fails only when activated. */
module TypeExports {
  import opened Results
  import opened Types
  import opened Lifetimes
  import opened Promises
  import opened Selection

  /** What the provider remembers of its service descriptor. */
  datatype TypeProvider = TypeProvider(serviceType: Ty, implementationType: Ty, lifetime: Lifetime, generation: Generation)

  /** A type the provider can construct directly. */
  predicate Activatable(t: Ty) {
    !t.isAbstract && !t.isInterface && !t.IsGenericTypeDefinition()
  }

  /** The provider's constructor: it rejects an implementation it could never construct, before
      any dependency is looked at. A missing implementation type is rejected by `GetTypeInfo`,
      which raises an argument-null error naming its parameter "type". */
  function NewTypeProvider(d: Registration, generation: Generation): (r: Outcome<TypeProvider>)
    ensures d.implementationType.None? ==> r == Failure(ArgumentNull("type"))
    ensures d.implementationType.Some? ==> (r.Success? <==> Activatable(d.implementationType.value))
    ensures d.implementationType.Some? && r.Failure? ==>
              r.error == TypeCannotBeActivated(d.implementationType.value, d.serviceType)
    ensures r.Success? ==>
              && r.value.serviceType == d.serviceType
              && Some(r.value.implementationType) == d.implementationType
              && r.value.lifetime == d.lifetime
              && r.value.generation == generation
  {
    match d.implementationType
    case None => Failure(ArgumentNull("type"))
    case Some(impl) =>
      if Activatable(impl) then Success(TypeProvider(d.serviceType, impl, d.lifetime, generation))
      else Failure(TypeCannotBeActivated(impl, d.serviceType))
  }

  /** `GetTypedDescriptor`: the promise for `contract`, built by the implementation named by
      `implementationContract`. Building the promise never fails; a type with no composable
      constructor gets a promise without dependencies whose activator throws. */
  function GetTypedDescriptor(contract: Contract, implementationContract: Contract, lifetime: Lifetime,
                              env: Env, generation: Generation): (p: Promise)
    ensures p.contract == contract && p.origin == contract.contractType.name && !p.isShared
    ensures p.plan.Deferred? || p.plan.Create?
    ensures p.plan.Deferred? ==> p.thunk == NoDependencies
    ensures p.plan.Create? ==>
              p.plan.implementation == implementationContract.contractType && p.plan.lifetime == lifetime && p.thunk.Known?
  {
    var impl := implementationContract.contractType;
    var origin := contract.contractType.name;
    match TryGetLongestComposableConstructor(impl, env.constructorsOf(impl), env, generation)
    case NotComposable(e) => Promise(contract, origin, false, NoDependencies, Deferred(e))
    case Selected(ctor, dependencies) => Promise(contract, origin, false, Known(dependencies), Create(impl, ctor, lifetime))
  }

  /** The promise's plan follows the selection rule: it constructs with the longest public
      constructor whose parameters all resolve, depending on exactly those parameters' exports in
      parameter order, and defers a failure exactly when no public constructor composes. */
  lemma TypedDescriptorUsesLongestComposable(contract: Contract, implementationContract: Contract, lifetime: Lifetime,
                                             env: Env, generation: Generation)
    ensures var p := GetTypedDescriptor(contract, implementationContract, lifetime, env, generation);
            var impl := implementationContract.contractType;
            var ctors := env.constructorsOf(impl);
            && (p.plan.Deferred? <==> forall c :: c in ctors && c.isPublic ==> !Composable(env, c))
            && (p.plan.Deferred? && generation == Okra ==> p.plan.error == NoConstructorMatch(impl))
            && (p.plan.Create? ==>
                  && p.plan.ctor in ctors && p.plan.ctor.isPublic && Composable(env, p.plan.ctor)
                  && (forall c :: c in ctors && c.isPublic && Arity(c) > Arity(p.plan.ctor) ==> !Composable(env, c))
                  && FirstComposableOfArity(PublicOnly(ctors), env, p.plan.ctor)
                  && |p.thunk.dependencies| == Arity(p.plan.ctor)
                  && (forall i :: 0 <= i < Arity(p.plan.ctor) ==>
                        env.resolve(ContractFor(p.plan.ctor.parameters[i])) == Some(p.thunk.dependencies[i])))
  {
    var impl := implementationContract.contractType;
    var sel := TryGetLongestComposableConstructor(impl, env.constructorsOf(impl), env, generation);
    var p := GetTypedDescriptor(contract, implementationContract, lifetime, env, generation);
    assert sel.NotComposable? ==> p.plan == Deferred(sel.error);
    assert sel.Selected? ==> p.plan == Create(impl, sel.ctor, lifetime) && p.thunk == Known(sel.dependencies);
  }

  /** `GetExportDescriptors`: exactly one promise for a contract of the service type (whatever its
      name and constraints), none otherwise. */
  function GetExportDescriptors(p: TypeProvider, contract: Contract, env: Env): (r: seq<Promise>)
    ensures contract.contractType != p.serviceType ==> r == []
    ensures contract.contractType == p.serviceType ==>
              && |r| == 1
              && r[0].contract == contract
              && r[0] == GetTypedDescriptor(contract, contract.ChangeType(p.implementationType), p.lifetime, env, p.generation)
  {
    if contract.contractType != p.serviceType then []
    else [GetTypedDescriptor(contract, contract.ChangeType(p.implementationType), p.lifetime, env, p.generation)]
  }

  /** The newer generation reports why nothing composed: by the number of public constructors,
      naming the first unresolvable parameter when there was only one. */
  lemma DeferredErrorByCandidateCount(contract: Contract, implementationContract: Contract, lifetime: Lifetime, env: Env)
    ensures var p := GetTypedDescriptor(contract, implementationContract, lifetime, env, MefExtensions);
            var impl := implementationContract.contractType;
            var cands := PublicOnly(env.constructorsOf(impl));
            p.plan.Deferred? ==>
              && (|cands| == 0 ==> p.plan.error == NoConstructorMatch(impl))
              && (|cands| == 1 ==>
                    exists k :: 0 <= k < Arity(cands[0])
                                && p.plan.error == CannotResolveService(cands[0].parameters[k], impl)
                                && !Resolvable(env, cands[0].parameters[k]))
              && (|cands| >= 2 ==> p.plan.error == UnableToActivateType(impl))
  {
    var impl := implementationContract.contractType;
    var sel := TryGetLongestComposableConstructor(impl, env.constructorsOf(impl), env, MefExtensions);
    assert sel.NotComposable? ==> GetTypedDescriptor(contract, implementationContract, lifetime, env, MefExtensions).plan == Deferred(sel.error);
  }

  /** The failure is deferred: whatever activators the build is handed, the descriptor of a
      deferred promise is the bare throwing activator, not lifetime-wrapped, and running it in any
      scope raises the captured error and changes nothing. */
  lemma FailureRaisedOnlyOnActivation(contract: Contract, implementationContract: Contract, lifetime: Lifetime,
                                      env: Env, generation: Generation, targets: seq<Activator>, nextSharingId: nat,
                                      w: World, s: ScopeId)
    requires Valid(w) && s in w.scopes
    requires forall c :: c in env.constructorsOf(implementationContract.contractType) && c.isPublic ==> !Composable(env, c)
    ensures var p := GetTypedDescriptor(contract, implementationContract, lifetime, env, generation);
            var (a, next) := BuildDescriptor(p.plan, targets, nextSharingId);
            && p.thunk == NoDependencies
            && a.Throwing? && next == nextSharingId
            && Run(a, w, s) == (Failure(p.plan.error), w)
  {
    var p := GetTypedDescriptor(contract, implementationContract, lifetime, env, generation);
    TypedDescriptorUsesLongestComposable(contract, implementationContract, lifetime, env, generation);
    DeferredFailureRaisedOnlyWhenRun(p.plan.error, targets, nextSharingId, w, s);
  }

  /** On the success path the lifetime is applied: a shared lifetime wraps the constructing
      activator, which receives the dependency targets' activators in parameter order. */
  lemma SuccessActivatorIsLifetimeWrapped(contract: Contract, implementationContract: Contract, lifetime: Lifetime,
                                          env: Env, generation: Generation, targets: seq<Activator>, nextSharingId: nat)
    requires exists c :: c in env.constructorsOf(implementationContract.contractType) && c.isPublic && Composable(env, c)
    ensures var p := GetTypedDescriptor(contract, implementationContract, lifetime, env, generation);
            var (a, next) := BuildDescriptor(p.plan, targets, nextSharingId);
            var construct := Construct(implementationContract.contractType, p.plan.ctor, targets);
            && (lifetime == Transient ==> a == construct && next == nextSharingId)
            && (lifetime != Transient ==> a.Shared? && a.sharingId == nextSharingId && a.inner == construct
                                          && next == nextSharingId + 1)
  {
    var p := GetTypedDescriptor(contract, implementationContract, lifetime, env, generation);
    TypedDescriptorUsesLongestComposable(contract, implementationContract, lifetime, env, generation);
    assert p.plan.Create?;
  }

  /** The success activator evaluates the parameter activators left to right, each in the world
      the ones before it left behind, and passes their results, in that order, to the chosen
      constructor. A failing parameter activator stops the run before the constructor is invoked
      and its error is the activation's error; an exception from the constructor body surfaces
      as itself; a disposable result is bound to the scope the activator runs in. */
  lemma ConstructorReceivesArgumentsInOrder(impl: Ty, ctor: Ctor, ps: seq<Activator>, w: World, s: ScopeId)
    requires Valid(w) && s in w.scopes
    ensures var (args, w1) := RunAll(ps, w, s);
            args.Success? ==>
              && |args.value| == |ps|
              && forall i :: 0 <= i < |ps| ==> Run(ps[i], WorldBefore(ps, i, w, s), s).0 == Success(args.value[i])
    ensures var (args, w1) := RunAll(ps, w, s);
            args.Failure? ==>
              && Run(Construct(impl, ctor, ps), w, s) == (Failure(args.error), w1)
              && exists k :: FailsFirstAt(ps, k, w, s, Failure(args.error), w1)
    ensures var (args, w1) := RunAll(ps, w, s);
            var (r, w2) := Run(Construct(impl, ctor, ps), w, s);
            && (args.Success? && ctor.fault.None? ==> r == Success(Obj(w1.nextObject, impl, args.value)))
            && (args.Success? && ctor.fault.Some? ==> r == Failure(ConstructorFailed(impl, ctor.fault.value)) && w2 == w1)
            && (r.Success? && impl.isDisposable ==> w2.scopes[s].bound == w1.scopes[s].bound + [r.value])
            && (!impl.isDisposable ==> w2.scopes[s].bound == w1.scopes[s].bound)
  {
    RunAllInOrder(ps, w, s);
    RunAllStopsAtFirstFailure(ps, w, s);
    RunConstructUnfolds(impl, ctor, ps, w, s);
  }
}

=== FILE: types.dfy ===
/** The abstract type universe the container works over. Reflection is replaced by first-order
    type terms: a type has a name, a generic shape and the flags the container inspects. */
module Types {
  import opened Results

  /** How a type stands with respect to generics. */
  datatype Genericity =
    | NonGeneric
      /** An unbound generic type definition such as `Repository<>`, with its parameter count. */
    | Definition(arity: nat)
      /** A closed instantiation such as `Repository<int>`. */
    | Constructed(arguments: seq<Ty>)

  /** A type term. Abstractness, interface-ness and disposability belong to the definition,
      so every instantiation of a generic definition shares them. */
  datatype Ty = Ty(name: string, genericity: Genericity, isAbstract: bool, isInterface: bool, isDisposable: bool)
  {
    predicate IsGenericTypeDefinition() {
      genericity.Definition?
    }

    /** True for definitions and for constructed instantiations alike. */
    predicate IsGenericType() {
      !genericity.NonGeneric?
    }

    predicate IsConstructedGenericType() {
      genericity.Constructed?
    }

    /** The type arguments of a constructed type; a definition or a plain type has none. */
    function GenericTypeArguments(): seq<Ty> {
      if genericity.Constructed? then genericity.arguments else []
    }

    /** The definition a generic type is an instance of; a definition is its own definition. */
    function GetGenericTypeDefinition(): (d: Ty)
      requires IsGenericType()
      ensures d.IsGenericTypeDefinition()
      ensures d.name == name && d.isAbstract == isAbstract && d.isInterface == isInterface
      ensures IsConstructedGenericType() ==> d.genericity.arity == |GenericTypeArguments()|
    {
      if genericity.Definition? then this else this.(genericity := Definition(|genericity.arguments|))
    }
  }

  /** A composition contract: a type plus the optional name and metadata constraints that MEF
      also compares. Contracts are compared by value. */
  datatype Contract = Contract(contractType: Ty, contractName: Option<string>, constraints: map<string, string>)
  {
    /** The same contract with only its type replaced (`CompositionContract.ChangeType`). */
    function ChangeType(t: Ty): (c: Contract)
      ensures c.contractType == t
      ensures c.contractName == contractName && c.constraints == constraints
    {
      this.(contractType := t)
    }
  }

  /** The unnamed, unconstrained contract for a type (`new CompositionContract(type)`). */
  function ContractFor(t: Ty): Contract {
    Contract(t, None, map[])
  }

  datatype Lifetime = Singleton | Scoped | Transient

  /** A declared constructor: its visibility, its parameter types in order, and, when its body
      throws, the reason it throws. */
  datatype Ctor = Ctor(isPublic: bool, parameters: seq<Ty>, fault: Option<string>)

  /** A runtime value produced by an activator: an object with an identity, its runtime type and
      the arguments its constructor received, or an array of values. */
  datatype Instance = Obj(id: nat, ty: Ty, arguments: seq<Instance>) | Arr(items: seq<Instance>)

  /** A service descriptor. At most one of the three implementation fields is expected to be set,
      but the container only inspects them in a fixed priority order. A factory is named by a label. */
  datatype Registration = Registration(
    serviceType: Ty,
    implementationType: Option<Ty>,
    implementationInstance: Option<Instance>,
    implementationFactory: Option<nat>,
    lifetime: Lifetime)

  /** The two generations of the container: `Okra.MEF.DependencyInjection` and its successor
      `MEFExtensions.DependencyInjection`. They differ in the deferred error a type provider
      reports and in whether open-generic registrations are bucketed. */
  datatype Generation = Okra | MefExtensions

  /** Every exception the modelled code can raise, as a tagged value. */
  datatype Error =
      /** ArgumentException: the implementation type cannot be activated (provider construction). */
    | TypeCannotBeActivated(implementation: Ty, service: Ty)
      /** InvalidOperationException: no public constructor could be used. */
    | NoConstructorMatch(implementation: Ty)
      /** InvalidOperationException: the only candidate has a parameter that cannot be resolved. */
    | CannotResolveService(parameter: Ty, implementation: Ty)
      /** InvalidOperationException: several candidates, none composable. */
    | UnableToActivateType(implementation: Ty)
      /** The exception a constructor body threw, surfaced without its invocation wrapper. */
    | ConstructorFailed(implementation: Ty, reason: string)
      /** NotImplementedException: a registration with no implementation at all. */
    | NotImplemented
      /** MakeGenericType on a type that is not a generic definition. */
    | NotGenericDefinition(ty: Ty)
      /** MakeGenericType with the wrong number of type arguments. */
    | GenericArityMismatch(definition: Ty, supplied: nat)
      /** MakeGenericType with an argument that breaks a constraint on the definition's generic
          parameters (`class`, `struct`, `new()`, a base type or an interface). */
    | GenericConstraintViolated(definition: Ty, arguments: seq<Ty>)
      /** No enclosing scope carries the requested sharing boundary. */
    | ScopeNotFound(boundary: string)
      /** ArgumentNullException naming the parameter. */
    | ArgumentNull(parameterName: string)
      /** ArgumentOutOfRangeException from a list index. */
    | ArgumentOutOfRange(index: int)

  type Outcome<T> = Result<T, Error>

  /** Whether a generic definition's parameter constraints admit a list of type arguments. The
      constraints themselves are left to reflection, which this oracle stands in for. */
  type ConstraintOracle = (Ty, seq<Ty>) -> bool

  /** Closes a generic definition over type arguments (`Type.MakeGenericType`). It fails at run
      time, not earlier, on a non-definition, on an argument count that differs from the arity,
      and on arguments the definition's constraints do not admit, checked in that order. */
  function MakeGenericType(d: Ty, args: seq<Ty>, admits: ConstraintOracle): (r: Outcome<Ty>)
    ensures r.Success? <==> d.IsGenericTypeDefinition() && |args| == d.genericity.arity && admits(d, args)
    ensures !d.IsGenericTypeDefinition() ==> r == Failure(NotGenericDefinition(d))
    ensures d.IsGenericTypeDefinition() && |args| != d.genericity.arity ==> r == Failure(GenericArityMismatch(d, |args|))
    ensures d.IsGenericTypeDefinition() && |args| == d.genericity.arity && !admits(d, args) ==>
              r == Failure(GenericConstraintViolated(d, args))
    ensures r.Success? ==>
              && r.value.IsConstructedGenericType()
              && r.value.GetGenericTypeDefinition() == d
              && r.value.GenericTypeArguments() == args
  {
    if !d.IsGenericTypeDefinition() then Failure(NotGenericDefinition(d))
    else if |args| != d.genericity.arity then Failure(GenericArityMismatch(d, |args|))
    else if !admits(d, args) then Failure(GenericConstraintViolated(d, args))
    else Success(d.(genericity := Constructed(args)))
  }

  /** Closing a constructed type's definition over its own arguments, which the constraints
      admitted when the type was formed, gives the type back. */
  lemma CloseDefinitionRoundTrip(t: Ty, admits: ConstraintOracle)
    requires t.IsConstructedGenericType()
    requires admits(t.GetGenericTypeDefinition(), t.GenericTypeArguments())
    ensures MakeGenericType(t.GetGenericTypeDefinition(), t.GenericTypeArguments(), admits) == Success(t)
  {
  }
}
